=== FILE: README.md ===
# Liberty server.xml model

A Dafny model of the configuration core of Liberty-Toolkit, a Python 2 library
that edits the `server.xml` file of a WebSphere Liberty server.

The modelled parts are:

- **The typed element tree** (`src/liberty/serverxml.py`).
  - Every element class of the source is one constructor of `Catalog.Kind`, with its tag (`ELEMENT_NAME`).
  - An element is an immutable `Tree.Node` holding a kind, an attribute map, an optional text value and an ordered sequence of children.
  - The base-class operations `get`, `set`, `add`, `remove`, `find` and `find_all` are pure functions on nodes.
  - The find-or-create idiom shared by the admin tasks and `add_security_role` is `Tree.FirstOr` and `Tree.ReplaceFirst`. It is proved to leave exactly one child of the kind when there was none, and otherwise to edit the first one in place.
- **The builder** (`Builder`). It maps a parsed XML element tree to typed nodes through the tag-to-class registry (`Catalog.KindOf`). It fails on the first unknown tag in document order, and otherwise preserves tags, attributes, text and child order exactly.
- **The outputter** (`XmlOutputter`). It renders a node as indented lines: four spaces per level, the `id` attribute first and the other attributes ascending. A node with children renders as an open/close pair, and its text is then ignored. A node without children renders as a one-line text element when it has a non-empty value, or as a self-closed tag otherwise. The recursive, stateful writer is modelled as a method threading an indent and a line buffer, and is proved equal to a pure rendering function.
- **The class-specific list operations** (module `Variants`):
  - `FeatureManager.list_features` and `add_features`;
  - `Group.list_members` and `add_members`, which skip names already present;
  - `SecurityRole.add_groups` and `add_users`, which do not skip;
  - `Application.add_security_role`.
- **The AdminTask tree edits** (`src/liberty/serveradmin.py`). Each task is a function from the server root node to the new root node, or to a `Result` where the source can fail.

Every admin task and every class-specific list operation is also proved to keep the tree *well keyed*. That means each node carries only the attribute keys its class declares accessors for (`Tree.WellKeyed`). Of the base-class operations, `add`, `remove` and find-or-create keep it (`Tree.WellKeyedAdd`, `Tree.WellKeyedRemove`, `Tree.WellKeyedReplaceFirst`), but `set` keeps it only for a key the class declares (`Tree.WellKeyedSet`): the generic `set` accepts any key.

Module layout:

- `wrappers.dfy`: `Option`, `Result`, Python truthiness of an optional string.
- `catalog.dfy`: element classes, tags, the tag registry, the declared attribute keys.
- `tree.dfy`: the element node and its base-class operations.
- `string_order.dfy`: the ordering Python's `sorted` uses on strings, and sorted key lists.
- `builder.dfy`: the XML-to-model builder.
- `outputter.dfy`: the XML writer.
- `variants.dfy`: list operations of individual element classes.
- `admin_task.dfy`: the AdminTask edits.
- `scenarios.dfy`: concrete cases, from the repository's unit tests and from the modelled admin tasks applied to a bare server.

### Where the model departs from the code

- **Unknown tags.** `_build_tree` (serverxml.py:26-34) calls the default `lambda: None` for an unknown tag and then assigns attributes to `None`, so the build aborts with an `AttributeError`. The model turns that abort into the value `Failure(UnknownElement(tag))`.
- **Missing registry.** `create_user` and `create_group` (serveradmin.py:58-79) call `find_all` on the result of `find(BasicRegistry)` without checking it, so with no registry they crash with an `AttributeError`. `add_user_to_group` (serveradmin.py:81-84) raises `LibertyAdminTaskException`. The model turns all three into `Failure(MissingBasicRegistry)`.
- **`remove`.** It uses Python list membership and `list.remove` (serverxml.py:127-129), which compare with `==`, and on these classes `==` is object identity. The model's nodes are values, so `Tree.Remove` drops the first structurally equal child.
- **Duplicate tags.** This is not a departure. `_get_mapping` (serverxml.py:36-43) fills a dict one class at a time, so a later class with the same tag would silently replace an earlier one, and nothing reports it. `Catalog.RegistryOf` keeps that overwrite. `Catalog.TagInjective` proves no two classes share a tag, so no class is lost (`Catalog.KindOfTag`) and the visiting order does not matter.

## Model

| member | source | states |
|---|---|---|
| Catalog.RegistryOf | src/liberty/serverxml.py:36-43 | every tag in the table maps to a listed class carrying that tag, and every listed class's tag is in the table |
| Catalog.Tag | src/liberty/serverxml.py:138-139 | every class's element name is non-empty and starts with a lower-case letter, so an opening tag never reads as a closing one |
| Catalog.TagInjective | src/liberty/serverxml.py:36-43 | no two element classes share an `ELEMENT_NAME` |
| Catalog.KindOf | src/liberty/serverxml.py:28 | the lookup returns a class whose tag is the given one, and returns nothing exactly when no class has that tag |
| Catalog.KindOfTag | src/liberty/serverxml.py:36-43 | looking up any class's own tag finds that class |
| Catalog.DeclaredKeys | src/liberty/serverxml.py:97-114 | every class declares `id` (the base-class property); exactly users, groups, members, applications and security roles also declare `name` |
| Tree.Get | src/liberty/serverxml.py:131-133 | missing exactly when the key is absent, otherwise the stored value |
| Tree.Set | src/liberty/serverxml.py:135-136 | afterwards the key reads back the new value; every other key reads as before; the key set gains only that key; kind, text and children unchanged |
| Tree.Add | src/liberty/serverxml.py:116-117 | the child is appended after all existing children, which keep their order |
| Tree.IndexOf | src/liberty/serverxml.py:127-129 | the position of the first equal child, and none exactly when the child is absent |
| Tree.Remove | src/liberty/serverxml.py:127-129 | an absent child leaves the node unchanged; for a present one the first equal child is dropped and the others keep their order (so one element shorter, multiset minus that child); the node's own data is unchanged |
| Tree.RemoveUndoesAdd | src/liberty/serverxml.py:116-129 | removing a freshly appended child restores the node |
| Tree.FindIndex | src/liberty/serverxml.py:141-144 | the first child whose class is exactly the given one, none when no child has it |
| Tree.Find | src/liberty/serverxml.py:141-144 | returns nothing exactly when no child has the class; otherwise the first child of that class |
| Tree.FindAll | src/liberty/serverxml.py:146-152 | the result holds exactly the children of the given class, as many as the children of that class |
| Tree.FindAllAdd | src/liberty/serverxml.py:116-117 | an appended child comes last in `find_all` of its class |
| Tree.FilterKindMembers | src/liberty/serverxml.py:146-152 | `find_all` keeps exactly the children of the given class |
| Tree.FilterKindAppend | src/liberty/serverxml.py:146-152 | `find_all` distributes over concatenation of child lists, so order is preserved |
| Tree.FindIsFirstOfFindAll | src/liberty/serverxml.py:141-152 | `find` returns the head of `find_all`, and nothing exactly when `find_all` is empty |
| Tree.ReplaceChild | src/liberty/serveradmin.py:47-48 | an in-place edit changes one position and keeps every other child |
| Tree.FindIndexAppendNew | src/liberty/serverxml.py:141-144 | a child appended where none had its class is the first of its class |
| Tree.ReplaceKeepsFirst | src/liberty/serverxml.py:141-144 | editing the first child of a class in place keeps it the first of that class |
| Tree.FirstOr | src/liberty/serveradmin.py:32-35 | the first child of the class when `find` finds one, otherwise the freshly created node |
| Tree.ReplaceFirst | src/liberty/serveradmin.py:32-37 | the edited child is among the children afterwards and is the first of its class, in the old first one's place or appended at the end; the list grows by one exactly when the class was missing; every child other than the first of that class, and the node's own data, are kept |
| Tree.CountReplace | src/liberty/serverxml.py:146-152 | a kind-preserving edit does not change how many children of any class there are |
| Tree.CountAppend | src/liberty/serverxml.py:116-117 | appending adds one to the count of the appended child's class only |
| Tree.ReplaceFirstFound | src/liberty/serverxml.py:479-485 | after find-or-create, `find` returns the edited child; there is one child of the class if there were none, otherwise as many as before |
| Tree.FoundAppended | src/liberty/serverxml.py:479-485 | when the class was missing, the created child is appended and is the first of its class, whose count goes up by one |
| Tree.FoundInPlace | src/liberty/serverxml.py:479-485 | when the class was present, the edited child stays at the first position of its class and the count is unchanged |
| Tree.ReplaceFirstFrame | src/liberty/serverxml.py:479-485 | find-or-create keeps the parent's own data, grows the list by one exactly when the class was missing, keeps the first child of the class at its old position (or the end), and keeps every other child in place, later children of the class included |
| Tree.ReplaceFirstSame | src/liberty/serverxml.py:479-485 | writing back the found child unchanged leaves the node unchanged |
| Tree.WellKeyedSet | src/liberty/serverxml.py:135-136 | setting a key the class declares keeps the tree well keyed |
| Tree.WellKeyedAdd | src/liberty/serverxml.py:116-117 | appending a well-keyed child keeps the tree well keyed |
| Tree.WellKeyedRemove | src/liberty/serverxml.py:127-129 | removing a child keeps the tree well keyed |
| Tree.WellKeyedFirstOr | src/liberty/serverxml.py:141-144 | the found-or-created child of a well-keyed tree is well keyed |
| Tree.WellKeyedReplaceFirst | src/liberty/serverxml.py:479-485 | find-or-create with a well-keyed child keeps the tree well keyed |
| StringOrder.LessIrreflexive | src/liberty/serverxml.py:87 | no string sorts before itself |
| StringOrder.LessAsymmetric | src/liberty/serverxml.py:87 | string order is asymmetric |
| StringOrder.LessTransitive | src/liberty/serverxml.py:87 | string order is transitive |
| StringOrder.LessTotal | src/liberty/serverxml.py:87 | of two distinct strings one sorts first |
| StringOrder.LeastExists | src/liberty/serverxml.py:87 | every non-empty key set has a least key |
| StringOrder.LeastUnique | src/liberty/serverxml.py:87 | the least key is unique |
| StringOrder.SortedKeys | src/liberty/serverxml.py:87 | the keys of a set, each once and strictly ascending |
| StringOrder.SortedUnique | src/liberty/serverxml.py:87 | two strictly sorted lists with the same members are equal, so the sorted order is unique |
| Builder.Build | src/liberty/serverxml.py:26-34 | an unregistered tag fails with that tag; a success has the element's tag, attributes and text and as many children |
| Builder.BuildAll | src/liberty/serverxml.py:31-32 | a success holds one node per child, in order, each the child's own build; which tag a failure names is stated by `Builder.BuildAllFailsOnFirstUnknown` |
| Builder.Unbuild | src/liberty/serverxml.py:26-34 | the parse tree of a node carries a tag registered for its class, its attributes and text, and as many children |
| Builder.UnbuildAll | src/liberty/serverxml.py:31-32 | one parse tree per node, in order |
| Builder.BuildFailsOnFirstUnknown | src/liberty/serverxml.py:26-34 | the build fails exactly when some tag in the tree is unregistered, and then names the first such tag in document order |
| Builder.BuildAllFailsOnFirstUnknown | src/liberty/serverxml.py:31-32 | building a child list fails exactly when some child subtree holds an unknown tag, naming the first |
| Builder.BuildPreservesSource | src/liberty/serverxml.py:26-34 | a successful build keeps every tag, attribute map, text and child order of the input |
| Builder.BuildAllPreservesSource | src/liberty/serverxml.py:31-32 | a successfully built child list keeps every child's tag, attributes, text and order |
| Builder.BuildUnbuild | src/liberty/serverxml.py:26-34 | building the element tree of any model gives back that model |
| Builder.BuildAllUnbuildAll | src/liberty/serverxml.py:31-32 | the same for a list of children |
| Outputter.Pad | src/liberty/serverxml.py:59-60 | the indent is exactly that many spaces |
| Outputter.AttrOrder | src/liberty/serverxml.py:80-90 | each key exactly once, `id` first when present, the rest strictly ascending |
| Outputter.CanonicalOrderUnique | src/liberty/serverxml.py:80-90 | any list with that property is the emitted order |
| Outputter.AttrsText | src/liberty/serverxml.py:85-88 | the text is empty exactly when there are no keys, and otherwise starts with the separating space |
| Outputter.RenderAttrs | src/liberty/serverxml.py:80-90 | empty exactly for an element without attributes, otherwise starting with a space after the tag |
| Outputter.SplitAtConcat | src/liberty/serverxml.py:85-88 | splitting at the first delimiter recovers a prefix free of it |
| Outputter.ParseAttrsText | src/liberty/serverxml.py:85-88 | the text written for a key list parses back into exactly those key/value pairs, when no key contains `=` and no value contains `"` |
| Outputter.RenderAttrsRoundTrip | src/liberty/serverxml.py:80-90 | a written attribute string parses back to every key of the map in the emitted order with its value, and to no other key |
| Outputter.RenderLines | src/liberty/serverxml.py:65-78 | at least one line, and a single line exactly when the element has no children |
| Outputter.RenderChildren | src/liberty/serverxml.py:69-70 | at least one line per child |
| Outputter.RenderChildrenAppend | src/liberty/serverxml.py:69-70 | the lines of one more child follow the lines of the earlier children |
| Outputter.OutputElement | src/liberty/serverxml.py:65-78 | the writer appends exactly the element's rendered lines at the current indent and restores the indent |
| Outputter.OutputChildren | src/liberty/serverxml.py:68-71 | the writer appends each child's lines in order, one level deeper, and restores the indent |
| Outputter.Output | src/liberty/serverxml.py:92-94 | the produced text is the element's lines joined with newlines |
| Outputter.Render | src/liberty/serverxml.py:92-94 | the document is non-empty, starts with `<` and ends with `>`, with no trailing newline |
| Outputter.LineCount | src/liberty/serverxml.py:65-78 | one line per element plus one closing line per element with children |
| Outputter.LineCountAll | src/liberty/serverxml.py:69-70 | the same count for a child list |
| Outputter.LinesFramed | src/liberty/serverxml.py:65-78 | every line is indented at least to the element's level and ends with `>`; the first and last lines start with `<` exactly at that level |
| Outputter.ChildrenFramed | src/liberty/serverxml.py:69-70 | every line of a child list is framed at its level |
| Outputter.TextIgnoredWithChildren | src/liberty/serverxml.py:66-74 | an element with children renders the same whatever its text value |
| Outputter.JoinEnds | src/liberty/serverxml.py:62-63 | joining non-empty lines starts with the first line's first character and ends with the last line's last character |
| Variants.LiftMember | src/liberty/serverxml.py:173-178 | a name is listed exactly when it is among the names |
| Variants.LabelsAppend | src/liberty/serverxml.py:173-178 | listing distributes over concatenation of children |
| Variants.LabelsAt | src/liberty/serverxml.py:173-178 | the listing has, at each position, the label of the child there |
| Variants.LabelsAppendOne | src/liberty/serverxml.py:173-178 | one more child lists its label last |
| Variants.LabelsOfEntries | src/liberty/serverxml.py:180-185 | newly created entries list exactly their names |
| Variants.EntriesAppend | src/liberty/serverxml.py:180-185 | one more name gives one more entry at the end |
| Variants.NovelMembers | src/liberty/serverxml.py:180-185 | the names that get added are exactly the given names not yet listed |
| Variants.NovelDistinct | src/liberty/serverxml.py:180-185 | no name is added twice, even when repeated in the input |
| Variants.AddDistinctAppend | src/liberty/serverxml.py:180-185 | adding `a + b` is adding `a` then `b` |
| Variants.ListedAfter | src/liberty/serverxml.py:180-185 | after the loop over some names, a name is listed exactly when it was listed before or was one of them |
| Variants.AddDistinctLastStep | src/liberty/serverxml.py:181-185 | one loop step extends the appended novel names by the next name when new |
| Variants.LastStepNovel | src/liberty/serverxml.py:181-185 | a last name neither listed before nor given earlier is appended as one entry after the earlier novel names |
| Variants.NovelSnoc | src/liberty/serverxml.py:181-182 | one more name extends the names to add by it exactly when it is neither listed nor given earlier |
| Variants.AddDistinctAppendsNovel | src/liberty/serverxml.py:180-185 | the loop's result is the old children followed by one entry per novel name, in first-occurrence order |
| Variants.AddDistinctNoop | src/liberty/serverxml.py:180-185 | adding only already-listed names changes nothing |
| Variants.AddDistinctLabels | src/liberty/serverxml.py:180-185 | the listing afterwards is the old listing plus the novel names, and contains every given name |
| Variants.ListFeatures | src/liberty/serverxml.py:173-178 | one entry per child, in order, each the child's text |
| Variants.AddFeatures | src/liberty/serverxml.py:180-185 | new features are appended once each in input order, skipping ones listed; the list afterwards contains every name; the manager's own data is unchanged |
| Variants.AddFeaturesIdempotent | src/liberty/serverxml.py:180-185 | adding the same features twice is adding them once |
| Variants.AddFeaturesTwice | src/liberty/serverxml.py:180-185 | two calls equal one call with the concatenated list |
| Variants.ListMembers | src/liberty/serverxml.py:276-281 | one entry per child, in order, each the child's `name` |
| Variants.AddMembers | src/liberty/serverxml.py:283-288 | new members are appended once each in input order, skipping listed ones; every name is listed afterwards |
| Variants.AddMembersIdempotent | src/liberty/serverxml.py:283-288 | adding the same members twice is adding them once |
| Variants.NamedAllFacts | src/liberty/serverxml.py:506-516 | the created entries are all of the requested class and list exactly the names given |
| Variants.NamedAll | src/liberty/serverxml.py:506-516 | one child per name, in order, each of the requested class carrying just that name |
| Variants.AddNamed | src/liberty/serverxml.py:506-516 | the old children, unchanged, followed by one child of the requested class per given name, duplicates included, in order; the role's own data is unchanged |
| Variants.AddGroups | src/liberty/serverxml.py:506-510 | the old children kept as a prefix, then one group per name, duplicates included, in order; the role's own data unchanged |
| Variants.AddUsers | src/liberty/serverxml.py:512-516 | the old children kept as a prefix, then one user per name, duplicates included, in order; the role's own data unchanged |
| Variants.AddGroupsRepeats | src/liberty/serverxml.py:506-510 | unlike `add_members`, repeating `add_groups` appends the names again |
| Variants.AddSecurityRole | src/liberty/serverxml.py:479-485 | the first binding block afterwards is the old one (or a fresh one) with the role appended, and every other child and the application's own data are kept |
| Variants.AddSecurityRoleBinding | src/liberty/serverxml.py:479-485 | the role is appended to the first binding block; a block is created only when there was none, so there is then exactly one, and otherwise the number of blocks is unchanged; the first block afterwards is the old first block (or a fresh one) with the role appended; every other child, later blocks included, and the application's own data are untouched |
| Variants.AddSecurityRolesInOrder | src/liberty/serverxml.py:479-485 | repeated calls bind the roles in call order under the first binding block; a block is created only when there was none and some role is added, otherwise the number of blocks is unchanged |
| Variants.AddSecurityRolesFrame | src/liberty/serverxml.py:479-485 | binding roles leaves the application's attributes, text and class unchanged |
| Variants.AddSecurityRolesBare | src/liberty/serverxml.py:479-485 | roles added to an application without children end up in one new binding block, its only child, in call order |
| Variants.AddSecurityRolesSingle | src/liberty/serverxml.py:479-485 | roles added to an application whose only child is a binding block are appended to that block in call order |
| Variants.AppendWellKeyed | src/liberty/serverxml.py:116-117 | appending well-keyed children keeps a node well keyed |
| Variants.EntriesWellKeyed | src/liberty/serverxml.py:183-185 | created feature and member entries carry only declared keys |
| Variants.NamedAllWellKeyed | src/liberty/serverxml.py:506-516 | created group and user entries carry only declared keys |
| Variants.AddFeaturesWellKeyed | src/liberty/serverxml.py:180-185 | `add_features` keeps a well-keyed manager well keyed |
| Variants.AddMembersWellKeyed | src/liberty/serverxml.py:283-288 | `add_members` keeps a well-keyed group well keyed |
| Variants.AddNamedWellKeyed | src/liberty/serverxml.py:506-516 | `add_groups` and `add_users` keep a well-keyed role well keyed |
| Variants.AddSecurityRolesWellKeyed | src/liberty/serverxml.py:479-485 | binding well-keyed roles keeps the application well keyed |
| AdminTask.AddFeatures | src/liberty/serveradmin.py:31-37 | a feature manager exists afterwards and is exactly `add_features` applied to the old first manager (or a fresh one); its list is the old list plus the novel names; a manager is appended only when none existed; every other top-level element, later managers included, and the server's own data are unchanged |
| AdminTask.AddFeaturesIdempotent | src/liberty/serveradmin.py:31-37 | adding the same features to the server twice is adding them once |
| AdminTask.CountZero | src/liberty/serverxml.py:141-152 | a child list counts no children of a class exactly when `find` finds none |
| AdminTask.ModifyHttpEndpoints | src/liberty/serveradmin.py:39-48 | both ports are set on the first endpoint, which stays in the old first endpoint's place (or is appended); every other endpoint attribute is as before (or the defaults), and the endpoint's text and children are those of the old first endpoint (or none); an endpoint is appended only when none existed; every other top-level element and the server's own data are unchanged |
| AdminTask.ModifyHttpEndpointsCreates | src/liberty/serveradmin.py:40-45 | with no endpoint, exactly one is appended, carrying only id `defaultHttpEndpoint`, host `*` and the two ports, with no text and no children |
| AdminTask.CreateBasicRegistry | src/liberty/serveradmin.py:50-56 | an existing registry leaves the server unchanged; otherwise an empty registry with the id and realm is appended |
| AdminTask.NewRegistry | src/liberty/serveradmin.py:53-55 | a registry with exactly the id and realm attributes, no text and no users or groups |
| AdminTask.CreateBasicRegistryIdempotent | src/liberty/serveradmin.py:50-56 | a second call, whatever its arguments, changes nothing |
| AdminTask.AddToRegistry | src/liberty/serveradmin.py:58-79 | fails exactly without a registry; otherwise the entry is appended to the first registry, which stays in its place, exactly when its name is absent; the registry's attributes and text, every other top-level element, later registries included, and the server's own data are unchanged |
| AdminTask.AddToRegistryNames | src/liberty/serveradmin.py:58-79 | the registry's names of that class gain the new name exactly when it was absent |
| AdminTask.NamesOfAdd | src/liberty/serveradmin.py:58-68 | appending a named entry lists its name last among the names of its class |
| AdminTask.NewUser | src/liberty/serveradmin.py:65-67 | a user with exactly a name and a password, no text and no children |
| AdminTask.NewGroup | src/liberty/serveradmin.py:77-78 | a group with exactly a name, no text and no members |
| AdminTask.CreateUser | src/liberty/serveradmin.py:58-68 | fails exactly without a registry; a new user name appends exactly `NewUser` to the first registry, which stays in its place; a known name changes nothing; the registry's attributes and text and every other top-level element are unchanged |
| AdminTask.CreateUserIdempotent | src/liberty/serveradmin.py:58-68 | creating a user again, even with another password, changes nothing |
| AdminTask.CreateGroup | src/liberty/serveradmin.py:70-79 | fails exactly without a registry; a new group name appends exactly `NewGroup` to the first registry, which stays in its place; a known name changes nothing; the registry's attributes and text and every other top-level element are unchanged |
| AdminTask.CreateGroupIdempotent | src/liberty/serveradmin.py:70-79 | creating a group again changes nothing |
| AdminTask.JoinAllWellKeyed | src/liberty/serveradmin.py:86-89 | adding a member to the named groups keeps the registry well keyed |
| AdminTask.AddOneMember | src/liberty/serverxml.py:283-288 | adding one member lists it once at the end if new, otherwise changes nothing |
| AdminTask.AddUserToGroup | src/liberty/serveradmin.py:81-89 | fails exactly without a registry; the first registry stays in its place; every group of it with the name, and only those, becomes exactly `add_members` of that group with the user, so it gains the user once at the end of its members; no registry child's class or attributes change; the registry's attributes and text and every other top-level element are unchanged |
| AdminTask.JoinIfNamedWellKeyed | src/liberty/serveradmin.py:87-89 | adding the user to a matching group keeps that child well keyed |
| AdminTask.AddUserToGroupIdempotent | src/liberty/serveradmin.py:81-89 | adding the same user twice is adding it once |
| AdminTask.JoinTwice | src/liberty/serveradmin.py:86-89 | applying the join to a registry child twice is applying it once |
| AdminTask.JoinLists | src/liberty/serveradmin.py:86-89 | after the join, each group of that name lists its old members plus the user at the end when it was missing |
| AdminTask.JarFileset | src/liberty/serveradmin.py:101-104 | a fileset with exactly the driver directory and `*.jar` includes attributes, no text and no children |
| AdminTask.DriverLibrary | src/liberty/serveradmin.py:97-104 | library `jdbcLib` with only its id, no text, holding exactly that fileset |
| AdminTask.JdbcDriverNode | src/liberty/serveradmin.py:91-104 | driver with exactly the id and `libraryRef` `jdbcLib`, no text, holding exactly that library |
| AdminTask.CreateJdbcDriver | src/liberty/serveradmin.py:91-104 | exactly that driver is appended to the server, nothing else changes |
| AdminTask.NewDatasource | src/liberty/serveradmin.py:132-141 | id and JNDI name are the JNDI name, the driver reference is set, the isolation level is set only when non-empty, no other attribute, no text, no children |
| AdminTask.Props | src/liberty/serveradmin.py:109-114 | the vendor block carries database, user, password, host and port and nothing else, with no text |
| AdminTask.SchemaKeepsConnects | src/liberty/serveradmin.py:115-116 | setting the schema keeps the connection properties |
| AdminTask.AddBlock | src/liberty/serveradmin.py:118 | the data source gains the one vendor block as its only child |
| AdminTask.Db2Props | src/liberty/serveradmin.py:109-116 | the DB2 block carries exactly the connection properties plus `currentSchema` when the schema is non-empty, with no text |
| AdminTask.Db2Datasource | src/liberty/serveradmin.py:106-118 | the data source as above whose only child is that DB2 block |
| AdminTask.OracleDatasource | src/liberty/serveradmin.py:120-130 | the data source as above whose only child is one Oracle block carrying exactly the connection properties and no schema |
| AdminTask.CreateDb2Datasource | src/liberty/serveradmin.py:106-118 | exactly `Db2Datasource` is appended to the server, the earlier children unchanged |
| AdminTask.CreateOracleDatasource | src/liberty/serveradmin.py:120-130 | exactly `OracleDatasource` is appended to the server, the earlier children unchanged |
| AdminTask.VendorBlockNotGeneric | src/liberty/serverxml.py:141-144 | a vendor block is not found as the generic `properties` block, since `find` matches the exact class |
| AdminTask.NewExecutor | src/liberty/serveradmin.py:162-163 | an executor with only the JNDI name, no text and no children |
| AdminTask.AddManagedExecutorService | src/liberty/serveradmin.py:161-164 | exactly `NewExecutor` is appended, the earlier children unchanged |
| AdminTask.MappedRole | src/liberty/serveradmin.py:155-159 | a role named after the mapping holding one group of the same name |
| AdminTask.MappedRoles | src/liberty/serveradmin.py:155-159 | one such role per mapping name, in order |
| AdminTask.MappedRolesWellKeyed | src/liberty/serveradmin.py:155-159 | those roles are well keyed |
| AdminTask.WarApplication | src/liberty/serveradmin.py:148-152 | exactly the attributes id and name (the application name), type `war` and location `${server.config.dir}/apps/<name>.war`, no text, no children |
| AdminTask.MappedApplication | src/liberty/serveradmin.py:148-159 | that application's attributes, no text, and, once there is a role, a fresh binding block as its only child holding one mapped role per name, in order |
| AdminTask.InstallWar | src/liberty/serveradmin.py:143-159 | exactly `MappedApplication` is appended, with the id, name, type `war` and the location; the earlier children are unchanged |
| Scenarios.FeatureManagerScenario | test/liberty_tests/test_serverxml.py:166-172 | the repeated `jsp-2.2` is listed once, and the manager renders as four lines with the two features indented by four spaces |
| Scenarios.FeatureManagerRepeat | test/liberty_tests/test_serverxml.py:166-172 | adding a listed feature again changes nothing |
| Scenarios.DatasourceAttributeOrder | test/liberty_tests/test_serverxml.py:232-250 | the data-source attributes are emitted as `id`, `isolationLevel`, `jdbcDriverRef`, `jndiName` |
| Scenarios.BareServerBuilds | src/liberty/serverxml.py:26-34 | the parse tree of a bare `server` element builds to the empty server node |
| Scenarios.UnknownChildScenario | src/liberty/serverxml.py:26-34 | a server holding an unregistered `webApplication` child fails to build, naming that tag |
| Scenarios.Db2BlockScenario | src/liberty/serveradmin.py:106-118 | on a bare server, `create_db2_datasource` with a schema and no isolation level gives a data source without `isolationLevel` whose block is found by its own class, carries the schema, and is not the generic block |
| Scenarios.RegistryWithGroup | src/liberty/serveradmin.py:50-79 | creating a registry then a group gives a registry holding just that group |
| Scenarios.JoinFirstGroup | src/liberty/serveradmin.py:81-89 | joining a user to the first group appends it to that group's members |
| Scenarios.TwoJoins | src/liberty/serveradmin.py:81-89 | two distinct users join a group in call order |
| Scenarios.RegistryRequired | src/liberty/serveradmin.py:58-62 | `create_user` on a server without a registry fails |
| Scenarios.RegistryScenario | src/liberty/serveradmin.py:50-89 | on a bare server, a registry, a group `resDeployers`, then `resAdmin` and `resDeploy` joined to it list the members in that order |

## Left out

- Reading and parsing the XML file (`ElementTree.parse` in `Builder.build`) and writing the file in `AdminTask.save`. The builder starts from an already parsed element tree, and the admin tasks take and return the root node instead of holding it in an object.
- The reflective discovery of element classes in `_get_mapping`. The class list is the fixed `Catalog.AllKinds`. The base class `ElementModel`, whose tag is empty, is also entered in the source's table, but it is not a kind: XML has no element with an empty tag, so no build can reach it.
- `install_war`'s file-existence check and copy into the apps directory (serveradmin.py:144-147). These are file-system effects; only the tree edit is modelled.
- `get_ports`: a read of two attributes, covered by `Tree.Find` and `Tree.Get`.
- The `LibertyServer` class and its process and directory handling (`src/liberty/liberty.py`), which is not part of this model.
- Tree.Remove: removes by structural equality, where the source removes by object identity. Two distinct but equal children cannot be told apart in a value model.
- Outputter.Render: the source writes with Python 2 byte-string formatting, so non-ASCII text or attribute values from a parsed file raise `UnicodeEncodeError`; the model renders them.
- Variants.ListMembers: in the source, `list_members` reads `name` from every child and fails on a child class without that property. The model reads the `name` attribute of any child.
- The accumulation of `_content` when one `XmlOutputter` object is reused for several documents. The model gives each `output` call a fresh writer, as every call site in the repository does.
- XML escaping of attribute values and text. Neither the source nor the model escapes anything.
- Outputter.RenderAttrsRoundTrip: proved only when no key contains `=` and no value contains `"`. The source does no escaping, so such text is ambiguous after writing.
- Tree.Set: values are strings. The source can also store `None`, but no modelled task does, because every optional value is written only when truthy.
- Python 2 specifics (`has_key`, `iteritems`, `string.join`) and the text of `LibertyAdminTaskException`.
- StringOrder.Less: Python 2 compares byte strings byte by byte, where the model compares characters. The two orders agree on the ASCII keys the classes declare.

=== FILE: admin_task.dfy ===
/**
 * The `AdminTask` edits of a server configuration, as functions from the
 * root element before the edit to the root element after it. Reading the
 * file before and writing it after are left to the caller.
 */
module AdminTask {
  import opened Wrappers
  import opened Catalog
  import opened Tree
  import Variants

  /** What an edit reports when the configuration has no basic registry. */
  datatype AdminError = MissingBasicRegistry

  /** The registry the user and group edits work on keeps its own attributes and text. */
  ghost predicate SameRegistryFields(root: Node, r: Node)
  {
    UserRegistry(r).attrs == UserRegistry(root).attrs && UserRegistry(r).value == UserRegistry(root).value
  }

  /** `root` grew by exactly one child at the end. */
  ghost predicate Appended(root: Node, r: Node)
  {
    |r.children| == |root.children| + 1 && r.children[..|root.children|] == root.children
  }

  /** The element `r` appended last (meaningful when `Appended(root, r)`). */
  function Last(r: Node): Node
    requires |r.children| > 0
  {
    r.children[|r.children| - 1]
  }

  // ----- add_features ----------------------------------------------------

  const NewFeatureManager: Node := Empty(FeatureManager)

  /**
   * `add_features`: the first feature manager, created and appended when
   * missing, lists every name, each once more at most, new ones at the end.
   */
  function AddFeatures(root: Node, names: seq<string>): (r: Node)
    ensures Find(r, FeatureManager).Some?
    ensures var before := Variants.ListFeatures(FirstOr(root, NewFeatureManager));
      Variants.ListFeatures(FirstOr(r, NewFeatureManager)) == before + Variants.Lift(Variants.Novel(before, names))
    ensures forall x | x in names :: Some(x) in Variants.ListFeatures(FirstOr(r, NewFeatureManager))
    ensures FirstOr(r, NewFeatureManager) == Variants.AddFeatures(FirstOr(root, NewFeatureManager), names)
    ensures EditsFirst(root, r, FeatureManager)
    ensures CountKind(r.children, FeatureManager) == (if Find(root, FeatureManager).None? then 1 else CountKind(root.children, FeatureManager))
    ensures WellKeyed(root) ==> WellKeyed(r)
  {
    var fm := Variants.AddFeatures(FirstOr(root, NewFeatureManager), names);
    WellKeyedFirstOr(root, NewFeatureManager);
    Variants.AddFeaturesWellKeyed(FirstOr(root, NewFeatureManager), names);
    WellKeyedReplaceFirst(root, NewFeatureManager, fm);
    ReplaceFirstFound(root, NewFeatureManager, fm);
    ReplaceFirstFrame(root, NewFeatureManager, fm);
    CountZero(root.children, FeatureManager);
    ReplaceFirst(root, NewFeatureManager, fm)
  }

  /** Adding the same features again changes nothing. */
  lemma AddFeaturesIdempotent(root: Node, names: seq<string>)
    ensures AddFeatures(AddFeatures(root, names), names) == AddFeatures(root, names)
  {
    var fm := Variants.AddFeatures(FirstOr(root, NewFeatureManager), names);
    var r := AddFeatures(root, names);
    ReplaceFirstFound(root, NewFeatureManager, fm);
    Variants.AddFeaturesIdempotent(FirstOr(root, NewFeatureManager), names);
    FindIsFirstOfFindAll(r.children, FeatureManager);
    ReplaceFirstSame(r, NewFeatureManager);
  }

  /** A configuration has no child of kind `k` exactly when it counts none. */
  lemma {:induction false} CountZero(cs: seq<Node>, k: Kind)
    ensures CountKind(cs, k) == 0 <==> FindIndex(cs, k).None?
    decreases |cs|
  {
    if |cs| > 0 {
      CountZero(cs[1..], k);
    }
  }

  // ----- modify_http_endpoints -----------------------------------------

  /** The endpoint `modify_http_endpoints` creates when there is none. */
  const DefaultEndpoint: Node := Node(HttpEndpoint, map[IdKey := "defaultHttpEndpoint", HostKey := "*"], None, [])

  /**
   * `modify_http_endpoints`: the first endpoint, created when missing, gets
   * both ports; every other attribute of it is left as it was.
   */
  function ModifyHttpEndpoints(root: Node, httpPort: string, httpsPort: string): (r: Node)
    ensures Find(r, HttpEndpoint).Some?
    ensures var ep := FirstOr(r, DefaultEndpoint);
      Get(ep, HttpPortKey) == Some(httpPort) && Get(ep, HttpsPortKey) == Some(httpsPort)
    ensures forall k | k != HttpPortKey && k != HttpsPortKey ::
      Get(FirstOr(r, DefaultEndpoint), k) == Get(FirstOr(root, DefaultEndpoint), k)
    ensures var ep, prior := FirstOr(r, DefaultEndpoint), FirstOr(root, DefaultEndpoint);
      ep.kind == prior.kind && ep.value == prior.value && ep.children == prior.children
    ensures EditsFirst(root, r, HttpEndpoint)
    ensures WellKeyed(root) ==> WellKeyed(r)
  {
    var ep1 := Set(FirstOr(root, DefaultEndpoint), HttpPortKey, httpPort);
    var ep := Set(ep1, HttpsPortKey, httpsPort);
    assert WellKeyed(DefaultEndpoint);
    WellKeyedFirstOr(root, DefaultEndpoint);
    WellKeyedSet(FirstOr(root, DefaultEndpoint), HttpPortKey, httpPort);
    WellKeyedSet(ep1, HttpsPortKey, httpsPort);
    WellKeyedReplaceFirst(root, DefaultEndpoint, ep);
    ReplaceFirstFound(root, DefaultEndpoint, ep);
    ReplaceFirstFrame(root, DefaultEndpoint, ep);
    ReplaceFirst(root, DefaultEndpoint, ep)
  }

  /** Without an endpoint, the default one with id `defaultHttpEndpoint` and host `*` is appended. */
  lemma ModifyHttpEndpointsCreates(root: Node, httpPort: string, httpsPort: string)
    requires Find(root, HttpEndpoint).None?
    ensures var r := ModifyHttpEndpoints(root, httpPort, httpsPort);
      && Appended(root, r)
      && Last(r).kind == HttpEndpoint
      && Last(r).attrs == map[IdKey := "defaultHttpEndpoint", HostKey := "*", HttpPortKey := httpPort, HttpsPortKey := httpsPort]
      && Last(r).value == None && Last(r).children == []
  {
    var ep := Set(Set(DefaultEndpoint, HttpPortKey, httpPort), HttpsPortKey, httpsPort);
    assert FirstOr(root, DefaultEndpoint) == DefaultEndpoint;
    assert ModifyHttpEndpoints(root, httpPort, httpsPort) == Add(root, ep);
  }

  // ----- basic registry, users and groups ------------------------------

  /** The registry the user and group edits work on. */
  function UserRegistry(root: Node): Node
  {
    FirstOr(root, Empty(BasicRegistry))
  }

  /** The registry `create_basic_registry` appends: an id, a realm, no users or groups yet. */
  function NewRegistry(id: string, realm: string): (reg: Node)
    ensures reg.kind == BasicRegistry && reg.children == [] && reg.value == None && WellKeyed(reg)
    ensures reg.attrs.Keys == {IdKey, RealmKey} && Get(reg, IdKey) == Some(id) && Get(reg, RealmKey) == Some(realm)
  {
    Node(BasicRegistry, map[IdKey := id, RealmKey := realm], None, [])
  }

  /** `create_basic_registry`: appends a registry with that id and realm, unless one exists. */
  function CreateBasicRegistry(root: Node, id: string, realm: string): (r: Node)
    ensures Find(r, BasicRegistry).Some?
    ensures Find(root, BasicRegistry).Some? ==> r == root
    ensures Find(root, BasicRegistry).None? ==>
      Appended(root, r) && Last(r) == NewRegistry(id, realm)
    ensures WellKeyed(root) ==> WellKeyed(r)
  {
    if Find(root, BasicRegistry).Some? then root
    else
      var reg := NewRegistry(id, realm);
      WellKeyedAdd(root, reg);
      Add(root, reg)
  }

  /** Once a registry exists, creating one again changes nothing, whatever id and realm. */
  lemma CreateBasicRegistryIdempotent(root: Node, id: string, realm: string, id2: string, realm2: string)
    ensures CreateBasicRegistry(CreateBasicRegistry(root, id, realm), id2, realm2) == CreateBasicRegistry(root, id, realm)
  {
  }

  /** Names of the children of exactly kind `k`, as `find_all` then `.name` reads them. */
  function NamesOf(n: Node, k: Kind): seq<Option<string>>
  {
    Variants.Labels(FindAll(n, k), Variants.ByName)
  }

  /**
   * The shared step of `create_user` and `create_group`: fails without a
   * registry, otherwise appends `entry` to the registry unless a child of
   * its kind already carries `name`.
   */
  function AddToRegistry(root: Node, entry: Node, name: string): (r: Result<Node, AdminError>)
    ensures r.Failure? <==> Find(root, BasicRegistry).None?
    ensures r.Success? ==> Find(r.value, BasicRegistry).Some? && EditsFirst(root, r.value, BasicRegistry)
    ensures r.Success? ==>
      UserRegistry(r.value).children ==
        UserRegistry(root).children + (if Some(name) in NamesOf(UserRegistry(root), entry.kind) then [] else [entry])
    ensures r.Success? ==> SameRegistryFields(root, r.value)
    ensures r.Success? && WellKeyed(root) && WellKeyed(entry) ==> WellKeyed(r.value)
  {
    if Find(root, BasicRegistry).None? then Failure(MissingBasicRegistry)
    else
      var reg := UserRegistry(root);
      if Some(name) in NamesOf(reg, entry.kind) then
        FindIsFirstOfFindAll(root.children, BasicRegistry);
        Success(root)
      else
        var reg' := Add(reg, entry);
        WellKeyedFirstOr(root, Empty(BasicRegistry));
        WellKeyedAdd(reg, entry);
        WellKeyedReplaceFirst(root, Empty(BasicRegistry), reg');
        ReplaceFirstFound(root, Empty(BasicRegistry), reg');
        ReplaceFirstFrame(root, Empty(BasicRegistry), reg');
        Success(ReplaceFirst(root, Empty(BasicRegistry), reg'))
  }

  /** After `AddToRegistry` the names of that kind gain `name` at the end, unless it was already there. */
  lemma AddToRegistryNames(root: Node, entry: Node, name: string)
    requires Get(entry, NameKey) == Some(name)
    requires AddToRegistry(root, entry, name).Success?
    ensures var before := NamesOf(UserRegistry(root), entry.kind);
      NamesOf(UserRegistry(AddToRegistry(root, entry, name).value), entry.kind) ==
        before + (if Some(name) in before then [] else [Some(name)])
  {
    var prior := UserRegistry(root);
    var reg := UserRegistry(AddToRegistry(root, entry, name).value);
    if Some(name) !in NamesOf(prior, entry.kind) {
      assert reg == Add(prior, entry);
      NamesOfAdd(prior, entry, name);
    } else {
      assert reg.children == prior.children + [];
      assert reg == prior;
    }
  }

  /** Appending a child of kind `k` named `name` lists `name` last among that kind's names. */
  lemma NamesOfAdd(reg: Node, entry: Node, name: string)
    requires Get(entry, NameKey) == Some(name)
    ensures NamesOf(Add(reg, entry), entry.kind) == NamesOf(reg, entry.kind) + [Some(name)]
  {
    FindAllAdd(reg, entry);
    Variants.LabelsAppendOne(FindAll(reg, entry.kind), entry, Variants.ByName);
  }

  /** The user `create_user` appends. */
  function NewUser(username: string, password: string): (u: Node)
    ensures u.kind == User && u.children == [] && u.value == None && WellKeyed(u)
    ensures u.attrs.Keys == {NameKey, PasswordKey} && Get(u, NameKey) == Some(username) && Get(u, PasswordKey) == Some(password)
  {
    Node(User, map[NameKey := username, PasswordKey := password], None, [])
  }

  /** The group `create_group` appends: a name and no members. */
  function NewGroup(groupName: string): (g: Node)
    ensures g.kind == Group && g.children == [] && g.value == None && WellKeyed(g)
    ensures g.attrs.Keys == {NameKey} && Get(g, NameKey) == Some(groupName)
  {
    Named(Group, groupName)
  }

  /**
   * `create_user`: fails without a registry; otherwise the registry's users
   * gain `username`, unless a user of that name exists, whose password is
   * then left alone.
   */
  function CreateUser(root: Node, username: string, password: string): (r: Result<Node, AdminError>)
    ensures r.Failure? <==> Find(root, BasicRegistry).None?
    ensures r.Success? ==> EditsFirst(root, r.value, BasicRegistry) && SameRegistryFields(root, r.value)
    ensures r.Success? ==> var before := NamesOf(UserRegistry(root), User);
      NamesOf(UserRegistry(r.value), User) == before + (if Some(username) in before then [] else [Some(username)])
    ensures r.Success? && Some(username) !in NamesOf(UserRegistry(root), User) ==>
      UserRegistry(r.value).children == UserRegistry(root).children + [NewUser(username, password)]
    ensures r.Success? && Some(username) in NamesOf(UserRegistry(root), User) ==> r.value == root
    ensures r.Success? && WellKeyed(root) ==> WellKeyed(r.value)
  {
    var r := AddToRegistry(root, NewUser(username, password), username);
    if r.Success? then
      AddToRegistryNames(root, NewUser(username, password), username);
      r
    else r
  }

  /** `create_group`: as `create_user`, for a group with that name and no members. */
  function CreateGroup(root: Node, groupName: string): (r: Result<Node, AdminError>)
    ensures r.Failure? <==> Find(root, BasicRegistry).None?
    ensures r.Success? ==> EditsFirst(root, r.value, BasicRegistry) && SameRegistryFields(root, r.value)
    ensures r.Success? ==> var before := NamesOf(UserRegistry(root), Group);
      NamesOf(UserRegistry(r.value), Group) == before + (if Some(groupName) in before then [] else [Some(groupName)])
    ensures r.Success? && Some(groupName) !in NamesOf(UserRegistry(root), Group) ==>
      UserRegistry(r.value).children == UserRegistry(root).children + [NewGroup(groupName)]
    ensures r.Success? && Some(groupName) in NamesOf(UserRegistry(root), Group) ==> r.value == root
    ensures r.Success? && WellKeyed(root) ==> WellKeyed(r.value)
  {
    var r := AddToRegistry(root, NewGroup(groupName), groupName);
    if r.Success? then
      AddToRegistryNames(root, NewGroup(groupName), groupName);
      r
    else r
  }

  /** Creating a user twice, even with another password, is creating it once. */
  lemma CreateUserIdempotent(root: Node, username: string, password: string, password2: string)
    requires CreateUser(root, username, password).Success?
    ensures CreateUser(CreateUser(root, username, password).value, username, password2) == CreateUser(root, username, password)
  {
    var r := CreateUser(root, username, password).value;
    assert Some(username) in NamesOf(UserRegistry(r), User);
  }

  /** Creating a group twice is creating it once. */
  lemma CreateGroupIdempotent(root: Node, groupName: string)
    requires CreateGroup(root, groupName).Success?
    ensures CreateGroup(CreateGroup(root, groupName).value, groupName) == CreateGroup(root, groupName)
  {
    var r := CreateGroup(root, groupName).value;
    assert Some(groupName) in NamesOf(UserRegistry(r), Group);
  }

  /** One child of the registry after `add_user_to_group`: a group of that name gets the member. */
  function JoinIfNamed(c: Node, user: string, groupName: string): Node
  {
    if c.kind == Group && Get(c, NameKey) == Some(groupName) then Variants.AddMembers(c, [user]) else c
  }

  /** Every child of the registry after `add_user_to_group`. */
  function JoinAll(cs: seq<Node>, user: string, groupName: string): (r: seq<Node>)
    ensures |r| == |cs|
    ensures forall j | 0 <= j < |cs| :: r[j] == JoinIfNamed(cs[j], user, groupName)
  {
    seq(|cs|, j requires 0 <= j < |cs| => JoinIfNamed(cs[j], user, groupName))
  }

  lemma JoinIfNamedWellKeyed(c: Node, user: string, groupName: string)
    ensures WellKeyed(c) ==> WellKeyed(JoinIfNamed(c, user, groupName))
  {
    Variants.AddMembersWellKeyed(c, [user]);
  }

  lemma JoinAllWellKeyed(reg: Node, user: string, groupName: string)
    ensures WellKeyed(reg) ==> WellKeyed(reg.(children := JoinAll(reg.children, user, groupName)))
  {
    if WellKeyed(reg) {
      var cs := JoinAll(reg.children, user, groupName);
      forall j | 0 <= j < |cs|
        ensures WellKeyed(cs[j])
      {
        assert reg.children[j] in reg.children;
        JoinIfNamedWellKeyed(reg.children[j], user, groupName);
      }
      assert forall c | c in cs :: WellKeyed(c);
    }
  }

  /** A group's member names after one `add_members([user])`. */
  lemma AddOneMember(g: Node, user: string)
    ensures var seen := Variants.ListMembers(g);
      Variants.ListMembers(Variants.AddMembers(g, [user])) == seen + (if Some(user) in seen then [] else [Some(user)])
  {
    var seen := Variants.ListMembers(g);
    assert [user][..0] == [];
    assert Variants.Novel(seen, [user]) == Variants.Novel(seen, []) + (if Some(user) in seen then [] else [user]);
  }

  /**
   * `add_user_to_group`: fails without a registry; otherwise each group of
   * the registry with that name lists the user once (added at the end if
   * missing), and every other child of the registry is unchanged.
   */
  function AddUserToGroup(root: Node, user: string, groupName: string): (r: Result<Node, AdminError>)
    ensures r.Failure? <==> Find(root, BasicRegistry).None?
    ensures r.Success? ==> EditsFirst(root, r.value, BasicRegistry) && SameRegistryFields(root, r.value)
    ensures r.Success? ==> |UserRegistry(r.value).children| == |UserRegistry(root).children|
    ensures r.Success? ==> forall j | 0 <= j < |UserRegistry(root).children| ::
      && UserRegistry(r.value).children[j].kind == UserRegistry(root).children[j].kind
      && UserRegistry(r.value).children[j].attrs == UserRegistry(root).children[j].attrs
    ensures r.Success? ==> forall j | 0 <= j < |UserRegistry(root).children| ::
      var g := UserRegistry(root).children[j];
      var seen := Variants.ListMembers(g);
      if g.kind == Group && Get(g, NameKey) == Some(groupName) then
        && UserRegistry(r.value).children[j] == Variants.AddMembers(g, [user])
        && Variants.ListMembers(UserRegistry(r.value).children[j]) == seen + (if Some(user) in seen then [] else [Some(user)])
      else UserRegistry(r.value).children[j] == g
    ensures r.Success? && WellKeyed(root) ==> WellKeyed(r.value)
  {
    if Find(root, BasicRegistry).None? then Failure(MissingBasicRegistry)
    else
      var prior := UserRegistry(root);
      var cs := JoinAll(prior.children, user, groupName);
      var reg := prior.(children := cs);
      WellKeyedFirstOr(root, Empty(BasicRegistry));
      JoinAllWellKeyed(prior, user, groupName);
      WellKeyedReplaceFirst(root, Empty(BasicRegistry), reg);
      ReplaceFirstFound(root, Empty(BasicRegistry), reg);
      ReplaceFirstFrame(root, Empty(BasicRegistry), reg);
      JoinLists(prior.children, cs, user, groupName);
      Success(ReplaceFirst(root, Empty(BasicRegistry), reg))
  }

  /** Adding the same user to the same groups again changes nothing. */
  lemma AddUserToGroupIdempotent(root: Node, user: string, groupName: string)
    requires AddUserToGroup(root, user, groupName).Success?
    ensures AddUserToGroup(AddUserToGroup(root, user, groupName).value, user, groupName) == AddUserToGroup(root, user, groupName)
  {
    var prior := UserRegistry(root);
    var cs := JoinAll(prior.children, user, groupName);
    var reg := prior.(children := cs);
    var r1 := AddUserToGroup(root, user, groupName).value;
    assert r1 == ReplaceFirst(root, Empty(BasicRegistry), reg);
    ReplaceFirstFound(root, Empty(BasicRegistry), reg);
    assert UserRegistry(r1) == reg;
    var cs2 := JoinAll(cs, user, groupName);
    forall j | 0 <= j < |cs|
      ensures cs2[j] == cs[j]
    {
      JoinTwice(prior.children[j], user, groupName);
    }
    assert cs2 == cs;
    assert Find(r1, BasicRegistry).Some?;
    assert AddUserToGroup(r1, user, groupName) == Success(ReplaceFirst(r1, Empty(BasicRegistry), reg.(children := cs2)));
    assert reg.(children := cs2) == FirstOr(r1, Empty(BasicRegistry));
    FindIsFirstOfFindAll(r1.children, BasicRegistry);
    ReplaceFirstSame(r1, Empty(BasicRegistry));
  }

  lemma JoinTwice(c: Node, user: string, groupName: string)
    ensures JoinIfNamed(JoinIfNamed(c, user, groupName), user, groupName) == JoinIfNamed(c, user, groupName)
  {
    if c.kind == Group && Get(c, NameKey) == Some(groupName) {
      Variants.AddMembersIdempotent(c, [user]);
    }
  }

  lemma JoinLists(ps: seq<Node>, cs: seq<Node>, user: string, groupName: string)
    requires |cs| == |ps|
    requires forall j | 0 <= j < |ps| :: cs[j] == JoinIfNamed(ps[j], user, groupName)
    ensures forall j | 0 <= j < |ps| && ps[j].kind == Group && Get(ps[j], NameKey) == Some(groupName) ::
      Variants.ListMembers(cs[j]) == Variants.ListMembers(ps[j]) +
        (if Some(user) in Variants.ListMembers(ps[j]) then [] else [Some(user)])
  {
    forall j | 0 <= j < |ps| && ps[j].kind == Group && Get(ps[j], NameKey) == Some(groupName)
      ensures Variants.ListMembers(cs[j]) == Variants.ListMembers(ps[j]) +
        (if Some(user) in Variants.ListMembers(ps[j]) then [] else [Some(user)])
    {
      AddOneMember(ps[j], user);
    }
  }

  // ----- JDBC driver and data sources ----------------------------------

  /** The file set of a driver library: every jar in the driver's directory. */
  function JarFileset(driverPath: string): (f: Node)
    ensures f.kind == Fileset && f.children == [] && f.value == None && WellKeyed(f)
    ensures f.attrs.Keys == {DirKey, IncludesKey}
    ensures Get(f, DirKey) == Some(driverPath) && Get(f, IncludesKey) == Some("*.jar")
  {
    Node(Fileset, map[DirKey := driverPath, IncludesKey := "*.jar"], None, [])
  }

  /** The library `jdbcLib` holding that file set alone. */
  function DriverLibrary(driverPath: string): (l: Node)
    ensures l.kind == Library && l.children == [JarFileset(driverPath)] && l.value == None && WellKeyed(l)
    ensures l.attrs.Keys == {IdKey} && Get(l, IdKey) == Some("jdbcLib")
  {
    Node(Library, map[IdKey := "jdbcLib"], None, [JarFileset(driverPath)])
  }

  /** The driver `create_jdbc_driver` builds: its library reference names its own nested `jdbcLib` library of jars. */
  function JdbcDriverNode(driverId: string, driverPath: string): (d: Node)
    ensures d.kind == JdbcDriver && Get(d, IdKey) == Some(driverId)
    ensures d.children == [DriverLibrary(driverPath)]
    ensures Get(d, LibraryRefKey) == Get(d.children[0], IdKey) == Some("jdbcLib")
    ensures d.attrs.Keys == {IdKey, LibraryRefKey} && d.value == None
    ensures WellKeyed(d)
  {
    Node(JdbcDriver, map[IdKey := driverId, LibraryRefKey := "jdbcLib"], None, [DriverLibrary(driverPath)])
  }

  /** `create_jdbc_driver`: appends the driver and nothing else. */
  function CreateJdbcDriver(root: Node, driverId: string, driverPath: string): (r: Node)
    ensures Appended(root, r) && Last(r) == JdbcDriverNode(driverId, driverPath)
    ensures WellKeyed(root) ==> WellKeyed(r)
  {
    WellKeyedAdd(root, JdbcDriverNode(driverId, driverPath));
    Add(root, JdbcDriverNode(driverId, driverPath))
  }

  /**
   * What `_create_datasource` promises: the JNDI name doubles as id, the
   * driver is referenced, an isolation level is set only when truthy, and
   * there is no other attribute and no text.
   */
  ghost predicate DatasourceFor(d: Node, jndiName: string, driverId: string, isolationLevel: Option<string>)
  {
    && d.kind == Datasource && Get(d, IdKey) == Get(d, JndiKey) == Some(jndiName)
    && Get(d, JdbcDriverRefKey) == Some(driverId)
    && Get(d, IsolationLevelKey) == (if Truthy(isolationLevel) then isolationLevel else None)
    && d.attrs.Keys <= {IdKey, JndiKey, JdbcDriverRefKey, IsolationLevelKey}
    && d.value == None
  }

  /** `_create_datasource`: the data source before its property block is added. */
  function NewDatasource(jndiName: string, driverId: string, isolationLevel: Option<string>): (d: Node)
    ensures DatasourceFor(d, jndiName, driverId, isolationLevel) && d.children == []
    ensures WellKeyed(d)
  {
    var d := Node(Datasource, map[IdKey := jndiName, JndiKey := jndiName, JdbcDriverRefKey := driverId], None, []);
    if Truthy(isolationLevel) then Set(d, IsolationLevelKey, isolationLevel.value) else d
  }

  /** The connection attributes a vendor block carries. */
  ghost predicate Connects(p: Node, dbName: string, dbUser: string, dbPwd: string, dbHost: string, dbPort: string)
  {
    && Get(p, DatabaseNameKey) == Some(dbName) && Get(p, DbUserKey) == Some(dbUser) && Get(p, PasswordKey) == Some(dbPwd)
    && Get(p, ServerNameKey) == Some(dbHost) && Get(p, PortKey) == Some(dbPort)
  }

  /** The connection properties both vendor blocks carry. */
  function Props(k: Kind, dbName: string, dbUser: string, dbPwd: string, dbHost: string, dbPort: string): (p: Node)
    ensures p.kind == k && p.children == [] && p.value == None
    ensures Connects(p, dbName, dbUser, dbPwd, dbHost, dbPort) && Get(p, SchemaKey) == None
    ensures p.attrs.Keys == PropKeys
    ensures k == DatasourceProp || k == DB2JCCProp || k == OracleProp ==> WellKeyed(p)
  {
    Node(k, map[DatabaseNameKey := dbName, DbUserKey := dbUser, PasswordKey := dbPwd, ServerNameKey := dbHost, PortKey := dbPort], None, [])
  }

  /** Setting the schema keeps the connection attributes. */
  lemma SchemaKeepsConnects(p: Node, dbName: string, dbUser: string, dbPwd: string, dbHost: string, dbPort: string, v: string)
    requires Connects(p, dbName, dbUser, dbPwd, dbHost, dbPort)
    ensures Connects(Set(p, SchemaKey, v), dbName, dbUser, dbPwd, dbHost, dbPort)
  {
  }

  /** A data source whose only child is one property block of exactly kind `k`. */
  ghost predicate OneBlock(d: Node, k: Kind)
  {
    && |d.children| == 1 && d.children[0].kind == k
    && forall c | c in d.children :: c == d.children[0]
  }

  /** Adding the block to a fresh data source keeps its attributes and makes the block its only child. */
  lemma AddBlock(d: Node, p: Node, jndiName: string, driverId: string, isolationLevel: Option<string>)
    requires DatasourceFor(d, jndiName, driverId, isolationLevel) && d.children == []
    ensures DatasourceFor(Add(d, p), jndiName, driverId, isolationLevel) && OneBlock(Add(d, p), p.kind)
    ensures Add(d, p).children[0] == p
    ensures WellKeyed(d) && WellKeyed(p) ==> WellKeyed(Add(d, p))
  {
    assert Add(d, p).children == [p];
    WellKeyedAdd(d, p);
  }

  /** The `properties.db2.jcc` block: the connection attributes, and `currentSchema` only for a truthy schema. */
  function Db2Props(dbName: string, dbUser: string, dbPwd: string, dbHost: string, dbPort: string, schema: Option<string>): (p: Node)
    ensures p.kind == DB2JCCProp && p.children == [] && p.value == None
    ensures Connects(p, dbName, dbUser, dbPwd, dbHost, dbPort)
    ensures Get(p, SchemaKey) == (if Truthy(schema) then schema else None)
    ensures p.attrs.Keys == PropKeys + (if Truthy(schema) then {SchemaKey} else {})
    ensures WellKeyed(p)
  {
    var p := Props(DB2JCCProp, dbName, dbUser, dbPwd, dbHost, dbPort);
    if Truthy(schema) then
      SchemaKeepsConnects(p, dbName, dbUser, dbPwd, dbHost, dbPort, schema.value);
      WellKeyedSet(p, SchemaKey, schema.value);
      Set(p, SchemaKey, schema.value)
    else p
  }

  /** The data source `create_db2_datasource` builds. */
  function Db2Datasource(jndiName: string, driverId: string, dbName: string, dbUser: string, dbPwd: string,
                         dbHost: string, dbPort: string, schema: Option<string>, isolationLevel: Option<string>): (d: Node)
    ensures DatasourceFor(d, jndiName, driverId, isolationLevel)
    ensures OneBlock(d, DB2JCCProp) && d.children == [Db2Props(dbName, dbUser, dbPwd, dbHost, dbPort, schema)]
    ensures Connects(d.children[0], dbName, dbUser, dbPwd, dbHost, dbPort)
    ensures Get(d.children[0], SchemaKey) == (if Truthy(schema) then schema else None)
    ensures WellKeyed(d)
  {
    var block := Db2Props(dbName, dbUser, dbPwd, dbHost, dbPort, schema);
    var d := NewDatasource(jndiName, driverId, isolationLevel);
    AddBlock(d, block, jndiName, driverId, isolationLevel);
    Add(d, block)
  }

  /** The data source `create_oracle_datasource` builds. */
  function OracleDatasource(jndiName: string, driverId: string, dbName: string, dbUser: string, dbPwd: string,
                            dbHost: string, dbPort: string, isolationLevel: Option<string>): (d: Node)
    ensures DatasourceFor(d, jndiName, driverId, isolationLevel)
    ensures OneBlock(d, OracleProp) && d.children == [Props(OracleProp, dbName, dbUser, dbPwd, dbHost, dbPort)]
    ensures Connects(d.children[0], dbName, dbUser, dbPwd, dbHost, dbPort)
    ensures Get(d.children[0], SchemaKey) == None
    ensures WellKeyed(d)
  {
    var p := Props(OracleProp, dbName, dbUser, dbPwd, dbHost, dbPort);
    var d := NewDatasource(jndiName, driverId, isolationLevel);
    assert WellKeyed(p);
    AddBlock(d, p, jndiName, driverId, isolationLevel);
    Add(d, p)
  }

  /** `create_db2_datasource`: appends one data source holding one `properties.db2.jcc` block. */
  function CreateDb2Datasource(root: Node, jndiName: string, driverId: string, dbName: string, dbUser: string, dbPwd: string,
                               dbHost: string, dbPort: string, schema: Option<string>, isolationLevel: Option<string>): (r: Node)
    ensures Appended(root, r) && Last(r) == Db2Datasource(jndiName, driverId, dbName, dbUser, dbPwd, dbHost, dbPort, schema, isolationLevel)
    ensures DatasourceFor(Last(r), jndiName, driverId, isolationLevel) && OneBlock(Last(r), DB2JCCProp)
    ensures Connects(Last(r).children[0], dbName, dbUser, dbPwd, dbHost, dbPort)
    ensures Get(Last(r).children[0], SchemaKey) == (if Truthy(schema) then schema else None)
    ensures WellKeyed(root) ==> WellKeyed(r)
  {
    WellKeyedAdd(root, Db2Datasource(jndiName, driverId, dbName, dbUser, dbPwd, dbHost, dbPort, schema, isolationLevel));
    Add(root, Db2Datasource(jndiName, driverId, dbName, dbUser, dbPwd, dbHost, dbPort, schema, isolationLevel))
  }

  /** `create_oracle_datasource`: appends one data source holding one `properties.oracle` block and no schema. */
  function CreateOracleDatasource(root: Node, jndiName: string, driverId: string, dbName: string, dbUser: string, dbPwd: string,
                                  dbHost: string, dbPort: string, isolationLevel: Option<string>): (r: Node)
    ensures Appended(root, r) && Last(r) == OracleDatasource(jndiName, driverId, dbName, dbUser, dbPwd, dbHost, dbPort, isolationLevel)
    ensures DatasourceFor(Last(r), jndiName, driverId, isolationLevel) && OneBlock(Last(r), OracleProp)
    ensures Connects(Last(r).children[0], dbName, dbUser, dbPwd, dbHost, dbPort)
    ensures Get(Last(r).children[0], SchemaKey) == None
    ensures WellKeyed(root) ==> WellKeyed(r)
  {
    WellKeyedAdd(root, OracleDatasource(jndiName, driverId, dbName, dbUser, dbPwd, dbHost, dbPort, isolationLevel));
    Add(root, OracleDatasource(jndiName, driverId, dbName, dbUser, dbPwd, dbHost, dbPort, isolationLevel))
  }

  /** The vendor block of a data source is found under its own kind and never as the generic `properties`. */
  lemma VendorBlockNotGeneric(d: Node, k: Kind)
    requires OneBlock(d, k) && k != DatasourceProp
    ensures Find(d, DatasourceProp).None?
    ensures FindAll(d, k) == d.children
  {
    assert d.children == [d.children[0]];
    assert FilterKind(d.children, k) == [d.children[0]] + FilterKind([], k);
  }

  // ----- executor service and applications ----------------------------

  /** The executor `add_managed_executor_service` appends: that JNDI name and nothing else. */
  function NewExecutor(jndiName: string): (e: Node)
    ensures e.kind == ManagedExecutorService && e.children == [] && e.value == None
    ensures e.attrs.Keys == {JndiKey} && Get(e, JndiKey) == Some(jndiName)
    ensures WellKeyed(e)
  {
    Node(ManagedExecutorService, map[JndiKey := jndiName], None, [])
  }

  /** `add_managed_executor_service`: appends one executor carrying only that JNDI name. */
  function AddManagedExecutorService(root: Node, jndiName: string): (r: Node)
    ensures Appended(root, r) && Last(r) == NewExecutor(jndiName)
    ensures Last(r).kind == ManagedExecutorService && Last(r).children == [] && Last(r).value == None
    ensures Get(Last(r), JndiKey) == Some(jndiName) && Last(r).attrs.Keys == {JndiKey}
    ensures WellKeyed(root) ==> WellKeyed(r)
  {
    WellKeyedAdd(root, NewExecutor(jndiName));
    Add(root, NewExecutor(jndiName))
  }

  /** The role `install_war` maps: named after the role and granted to the group of the same name. */
  function MappedRole(role: string): (r: Node)
    ensures r.kind == SecurityRole && Get(r, NameKey) == Some(role)
    ensures CountKind(r.children, Group) == |r.children| == 1
    ensures Variants.Labels(r.children, Variants.ByName) == [Some(role)]
    ensures WellKeyed(r)
  {
    var named := Named(SecurityRole, role);
    assert WellKeyed(named);
    Variants.AddNamedWellKeyed(named, Group, [role]);
    Variants.AddGroups(named, [role])
  }

  function MappedRoles(roles: seq<string>): (r: seq<Node>)
    ensures |r| == |roles|
    ensures forall j | 0 <= j < |roles| :: r[j] == MappedRole(roles[j])
  {
    if |roles| == 0 then [] else [MappedRole(roles[0])] + MappedRoles(roles[1..])
  }

  lemma MappedRolesWellKeyed(roles: seq<string>)
    ensures forall c | c in MappedRoles(roles) :: WellKeyed(c)
  {
    forall c | c in MappedRoles(roles)
      ensures WellKeyed(c)
    {
      var j :| 0 <= j < |roles| && MappedRoles(roles)[j] == c;
    }
  }

  /** The application `install_war` registers for a war of that name, before any role is mapped. */
  function WarApplication(name: string): (app: Node)
    ensures app.kind == Application && app.children == [] && app.value == None
    ensures Get(app, IdKey) == Get(app, NameKey) == Some(name) && Get(app, TypeKey) == Some("war")
    ensures Get(app, LocationKey) == Some("${server.config.dir}/apps/" + name + ".war")
    ensures app.attrs.Keys == {IdKey, NameKey, TypeKey, LocationKey} && WellKeyed(app)
  {
    Node(Application, map[IdKey := name, NameKey := name, TypeKey := "war",
                          LocationKey := "${server.config.dir}/apps/" + name + ".war"], None, [])
  }

  /**
   * The application with its roles mapped: the attributes stay, and its only
   * child, present once there is a role, is a fresh binding holding the
   * roles in order.
   */
  function MappedApplication(name: string, roles: seq<string>): (app: Node)
    ensures app.kind == Application && app.attrs == WarApplication(name).attrs && app.value == None
    ensures app.children == (if |roles| == 0 then [] else [Variants.NewBinding.(children := MappedRoles(roles))])
    ensures Variants.BoundRoles(app) == MappedRoles(roles)
    ensures CountKind(app.children, ApplicationBnd) == (if |roles| == 0 then 0 else 1)
    ensures WellKeyed(app)
  {
    var war := WarApplication(name);
    MappedRolesWellKeyed(roles);
    Variants.AddSecurityRolesWellKeyed(war, MappedRoles(roles));
    assert Variants.BoundRoles(war) == [];
    Variants.AddSecurityRolesInOrder(war, MappedRoles(roles));
    Variants.AddSecurityRolesFrame(war, MappedRoles(roles));
    Variants.AddSecurityRolesBare(war, MappedRoles(roles));
    Variants.AddSecurityRoles(war, MappedRoles(roles))
  }

  /**
   * The tree edit of `install_war`: one application appended, whose only
   * binding (present once there is a role) holds one security role per
   * mapped role, in order.
   */
  function InstallWar(root: Node, name: string, roles: seq<string>): (r: Node)
    ensures Appended(root, r) && Last(r) == MappedApplication(name, roles)
    ensures var app := Last(r);
      && app.kind == Application && Get(app, IdKey) == Get(app, NameKey) == Some(name) && Get(app, TypeKey) == Some("war")
      && Get(app, LocationKey) == Some("${server.config.dir}/apps/" + name + ".war")
      && Variants.BoundRoles(app) == MappedRoles(roles)
      && CountKind(app.children, ApplicationBnd) == (if |roles| == 0 then 0 else 1)
    ensures WellKeyed(root) ==> WellKeyed(r)
  {
    WellKeyedAdd(root, MappedApplication(name, roles));
    Add(root, MappedApplication(name, roles))
  }
}

=== FILE: builder.dfy ===
/**
 * The builder: rebuilds a typed element tree from a generic parse tree,
 * looking every tag up in the registry.
 */
module Builder {
  import opened Wrappers
  import opened Catalog
  import opened Tree

  /** What the markup parser hands over: tag, attribute dict, text, children. */
  datatype XmlElement = XmlElement(tag: string, attrib: map<string, string>, text: Option<string>, children: seq<XmlElement>)

  /** A tag with no registered class; the whole build is abandoned. */
  datatype BuildError = UnknownElement(tag: string)

  /** Every tag in the parse tree is registered. */
  predicate AllKnown(e: XmlElement)
  {
    KindOf(e.tag).Some? && forall c | c in e.children :: AllKnown(c)
  }

  /** The first unregistered tag in pre-order, the one the walk stumbles on. */
  function FirstUnknown(e: XmlElement): Option<string>
  {
    if KindOf(e.tag).None? then Some(e.tag) else FirstUnknownIn(e.children)
  }

  function FirstUnknownIn(es: seq<XmlElement>): Option<string>
  {
    if |es| == 0 then None
    else match FirstUnknown(es[0])
      case Some(t) => Some(t)
      case None => FirstUnknownIn(es[1..])
  }

  /** `_build_tree`: pre-order, attributes and text copied verbatim, children appended in order. */
  function Build(e: XmlElement): (r: Result<Node, BuildError>)
    ensures KindOf(e.tag).None? ==> r == Failure(UnknownElement(e.tag))
    ensures r.Success? ==> Tag(r.value.kind) == e.tag && r.value.attrs == e.attrib && r.value.value == e.text
    ensures r.Success? ==> |r.value.children| == |e.children|
  {
    match KindOf(e.tag)
    case None => Failure(UnknownElement(e.tag))
    case Some(k) =>
      match BuildAll(e.children)
      case Failure(err) => Failure(err)
      case Success(cs) => Success(Node(k, e.attrib, e.text, cs))
  }

  function BuildAll(es: seq<XmlElement>): (r: Result<seq<Node>, BuildError>)
    ensures r.Success? ==> |r.value| == |es| && forall j | 0 <= j < |es| :: Build(es[j]) == Success(r.value[j])
  {
    if |es| == 0 then Success([])
    else match Build(es[0])
      case Failure(err) => Failure(err)
      case Success(c) =>
        match BuildAll(es[1..])
        case Failure(err) => Failure(err)
        case Success(cs) => Success([c] + cs)
  }

  /** The parse tree a typed tree corresponds to: each node under its class's tag. */
  function Unbuild(n: Node): (r: XmlElement)
    ensures KindOf(r.tag) == Some(n.kind)
    ensures r.attrib == n.attrs && r.text == n.value && |r.children| == |n.children|
  {
    KindOfTag(n.kind);
    XmlElement(Tag(n.kind), n.attrs, n.value, UnbuildAll(n.children))
  }

  function UnbuildAll(ns: seq<Node>): (r: seq<XmlElement>)
    ensures |r| == |ns|
    ensures forall j | 0 <= j < |ns| :: r[j] == Unbuild(ns[j])
  {
    if |ns| == 0 then [] else [Unbuild(ns[0])] + UnbuildAll(ns[1..])
  }

  /**
   * The build fails exactly when some tag is unregistered, and then it names
   * the first such tag in document order.
   */
  lemma {:induction false} BuildFailsOnFirstUnknown(e: XmlElement)
    ensures Build(e).Failure? <==> FirstUnknown(e).Some?
    ensures Build(e).Failure? ==> Build(e).error == UnknownElement(FirstUnknown(e).value)
    ensures FirstUnknown(e).None? <==> AllKnown(e)
    decreases e, 1
  {
    BuildAllFailsOnFirstUnknown(e.children);
  }

  lemma {:induction false} BuildAllFailsOnFirstUnknown(es: seq<XmlElement>)
    ensures BuildAll(es).Failure? <==> FirstUnknownIn(es).Some?
    ensures BuildAll(es).Failure? ==> BuildAll(es).error == UnknownElement(FirstUnknownIn(es).value)
    ensures FirstUnknownIn(es).None? <==> forall c | c in es :: AllKnown(c)
    decreases es, 0
  {
    if |es| > 0 {
      BuildFailsOnFirstUnknown(es[0]);
      BuildAllFailsOnFirstUnknown(es[1..]);
      assert forall c | c in es :: c == es[0] || c in es[1..];
    }
  }

  /** A successful build keeps shape, order, attributes and text: undoing it gives the parse tree back. */
  lemma {:induction false} BuildPreservesSource(e: XmlElement)
    requires Build(e).Success?
    ensures Unbuild(Build(e).value) == e
    decreases e, 1
  {
    BuildAllPreservesSource(e.children);
  }

  lemma {:induction false} BuildAllPreservesSource(es: seq<XmlElement>)
    requires BuildAll(es).Success?
    ensures UnbuildAll(BuildAll(es).value) == es
    decreases es, 0
  {
    if |es| > 0 {
      BuildPreservesSource(es[0]);
      BuildAllPreservesSource(es[1..]);
      var ns := BuildAll(es).value;
      assert ns[1..] == BuildAll(es[1..]).value;
    }
  }

  /** Every typed tree is rebuilt exactly from its own parse tree. */
  lemma {:induction false} BuildUnbuild(n: Node)
    ensures Build(Unbuild(n)) == Success(n)
    decreases n, 1
  {
    KindOfTag(n.kind);
    BuildAllUnbuildAll(n.children);
  }

  lemma {:induction false} BuildAllUnbuildAll(ns: seq<Node>)
    ensures BuildAll(UnbuildAll(ns)) == Success(ns)
    decreases ns, 0
  {
    if |ns| > 0 {
      var es := UnbuildAll(ns);
      assert es[0] == Unbuild(ns[0]) && es[1..] == UnbuildAll(ns[1..]);
      BuildUnbuild(ns[0]);
      BuildAllUnbuildAll(ns[1..]);
      assert [ns[0]] + ns[1..] == ns;
    }
  }
}

=== FILE: catalog.dfy ===
/**
 * The variant catalog: every configuration element kind, its tag name, the
 * attribute keys its typed accessors read and write, and the tag registry the
 * builder consults.
 */
module Catalog {
  import opened Wrappers

  /** One constructor per concrete `ElementModel` subclass. */
  datatype Kind =
    | Server | FeatureManager | Feature | HttpEndpoint
    | BasicRegistry | User | Group | Member
    | Library | Fileset | JdbcDriver
    | Datasource | DatasourceProp | DB2JCCProp | OracleProp
    | Application | ApplicationBnd | SecurityRole
    | SSL | KeyStore | ManagedExecutorService

  /**
   * The class's `ELEMENT_NAME`: never empty, unlike the base class's, and
   * starting with a lower-case letter, so `<` before it never reads as `</`.
   */
  function Tag(k: Kind): (r: string)
    ensures |r| > 0 && 'a' <= r[0] <= 'z'
  {
    match k
    case Server => "server"
    case FeatureManager => "featureManager"
    case Feature => "feature"
    case HttpEndpoint => "httpEndpoint"
    case BasicRegistry => "basicRegistry"
    case User => "user"
    case Group => "group"
    case Member => "member"
    case Library => "library"
    case Fileset => "fileset"
    case JdbcDriver => "jdbcDriver"
    case Datasource => "dataSource"
    case DatasourceProp => "properties"
    case DB2JCCProp => "properties.db2.jcc"
    case OracleProp => "properties.oracle"
    case Application => "application"
    case ApplicationBnd => "application-bnd"
    case SecurityRole => "security-role"
    case SSL => "ssl"
    case KeyStore => "keyStore"
    case ManagedExecutorService => "managedExecutorService"
  }

  /** Every kind, in the order the classes are declared. */
  const AllKinds: seq<Kind> := [
    Server, FeatureManager, Feature, HttpEndpoint,
    BasicRegistry, User, Group, Member,
    Library, Fileset, JdbcDriver,
    Datasource, DatasourceProp, DB2JCCProp, OracleProp,
    Application, ApplicationBnd, SecurityRole,
    SSL, KeyStore, ManagedExecutorService
  ]

  lemma AllKindsComplete(k: Kind)
    ensures k in AllKinds
  {
  }

  /** No two classes share an `ELEMENT_NAME`. */
  lemma TagInjective(a: Kind, b: Kind)
    requires Tag(a) == Tag(b)
    ensures a == b
  {
  }

  /**
   * The tag-to-class table as a dict filled one assignment per class, a later
   * class overwriting an earlier one with the same tag. `_get_mapping` visits
   * the classes in name order rather than in `AllKinds` order; since no two
   * classes share a tag (`TagInjective`), no assignment is ever overwritten
   * and the order does not change the table.
   */
  function RegistryOf(ks: seq<Kind>): (m: map<string, Kind>)
    ensures forall t | t in m :: Tag(m[t]) == t && m[t] in ks
    ensures forall k | k in ks :: Tag(k) in m
  {
    if |ks| == 0 then map[]
    else
      var k := ks[|ks| - 1];
      var m := RegistryOf(ks[..|ks| - 1]);
      assert forall j | j in ks[..|ks| - 1] :: j in ks;
      m[Tag(k) := k]
  }

  const Registry: map<string, Kind> := RegistryOf(AllKinds)

  lemma RegistryCovers()
    ensures forall k :: Tag(k) in Registry
  {
    forall k
      ensures Tag(k) in Registry
    {
      AllKindsComplete(k);
    }
  }

  /** The registry lookup: the class whose tag is `t`, or nothing. */
  function KindOf(t: string): (r: Option<Kind>)
    ensures r.Some? ==> Tag(r.value) == t
    ensures r.None? <==> forall k :: Tag(k) != t
  {
    RegistryCovers();
    if t in Registry then Some(Registry[t]) else None
  }

  /** Looking up a class's own tag finds that class: no registration is lost. */
  lemma KindOfTag(k: Kind)
    ensures KindOf(Tag(k)) == Some(k)
  {
    var r := KindOf(Tag(k));
    TagInjective(r.value, k);
  }

  // Attribute keys of the typed accessors (the classes' `*_KEY` constants).
  const IdKey := "id"
  const DescKey := "description"
  const HostKey := "host"
  const HttpPortKey := "httpPort"
  const HttpsPortKey := "httpsPort"
  const RealmKey := "realm"
  const NameKey := "name"
  const PasswordKey := "password"
  const DirKey := "dir"
  const IncludesKey := "includes"
  const LibraryRefKey := "libraryRef"
  const JndiKey := "jndiName"
  const JdbcDriverRefKey := "jdbcDriverRef"
  const IsolationLevelKey := "isolationLevel"
  const DatabaseNameKey := "databaseName"
  const ServerNameKey := "serverName"
  const PortKey := "portNumber"
  const DbUserKey := "user"
  const SchemaKey := "currentSchema"
  const TypeKey := "type"
  const LocationKey := "location"
  const KeyStoreRefKey := "keyStoreRef"
  const SslProtocolKey := "sslProtocol"

  /** Keys of the accessors shared by both vendor property blocks. */
  const PropKeys: set<string> := {DatabaseNameKey, ServerNameKey, PortKey, DbUserKey, PasswordKey}

  /**
   * The keys a kind's accessors use: `id` from the base class, plus the
   * class's own, plus those inherited from `DatasourceProp`.
   */
  function DeclaredKeys(k: Kind): (r: set<string>)
    ensures IdKey in r
    ensures NameKey in r <==> k in {User, Group, Member, Application, SecurityRole}
  {
    {IdKey} +
    match k
    case Server => {DescKey}
    case HttpEndpoint => {HostKey, HttpPortKey, HttpsPortKey}
    case BasicRegistry => {RealmKey}
    case User => {NameKey, PasswordKey}
    case Group => {NameKey}
    case Member => {NameKey}
    case Fileset => {DirKey, IncludesKey}
    case JdbcDriver => {LibraryRefKey}
    case Datasource => {JndiKey, JdbcDriverRefKey, IsolationLevelKey}
    case DatasourceProp => PropKeys
    case DB2JCCProp => PropKeys + {SchemaKey}
    case OracleProp => PropKeys
    case Application => {NameKey, TypeKey, LocationKey}
    case SecurityRole => {NameKey}
    case SSL => {KeyStoreRefKey, SslProtocolKey}
    case KeyStore => {PasswordKey}
    case ManagedExecutorService => {JndiKey}
    case _ => {}
  }
}

=== FILE: outputter.dfy ===
/**
 * The outputter: canonical indented text for an element tree. `RenderLines`
 * is the reference rendering; `OutputElement` is the stateful outputter
 * (indent counter plus line buffer) proved to produce exactly those lines.
 */
module Outputter {
  import opened Wrappers
  import opened StringOrder
  import opened Catalog
  import opened Tree

  /** `' ' * i`. */
  function Pad(i: nat): (r: string)
    ensures |r| == i && forall j | 0 <= j < i :: r[j] == ' '
  {
    seq(i, _ => ' ')
  }

  // ----- Attributes -------------------------------------------------------

  /**
   * The canonical attribute order for a key set: `id` first when present,
   * then every other key once, ascending.
   */
  ghost predicate CanonicalOrder(ks: seq<string>, keys: set<string>)
  {
    && (forall k :: k in ks <==> k in keys)
    && if IdKey in keys then
         |ks| > 0 && ks[0] == IdKey && IdKey !in ks[1..] && StrictlySorted(ks[1..])
       else
         StrictlySorted(ks)
  }

  /** The order `_output_attributes` emits keys in. */
  function AttrOrder(keys: set<string>): (r: seq<string>)
    ensures CanonicalOrder(r, keys)
  {
    var rest := SortedKeys(keys - {IdKey});
    if IdKey in keys then
      var r := [IdKey] + rest;
      assert r[1..] == rest;
      r
    else rest
  }

  /** The canonical order is the only one: any sequence meeting it is `AttrOrder`. */
  lemma CanonicalOrderUnique(ks: seq<string>, keys: set<string>)
    requires CanonicalOrder(ks, keys)
    ensures ks == AttrOrder(keys)
  {
    var rest := SortedKeys(keys - {IdKey});
    if IdKey in keys {
      forall x
        ensures x in ks[1..] <==> x in rest
      {
        assert x in ks <==> x == ks[0] || x in ks[1..];
      }
      SortedUnique(ks[1..], rest);
      assert ks == [ks[0]] + ks[1..];
    } else {
      SortedUnique(ks, rest);
    }
  }

  /** One rendered attribute, ` key="value"`; nothing is escaped. */
  function AttrText(k: string, v: string): string
  {
    " " + k + "=\"" + v + "\""
  }

  function AttrsText(ks: seq<string>, attrs: map<string, string>): (r: string)
    requires forall k | k in ks :: k in attrs
    ensures r == "" <==> |ks| == 0
    ensures |ks| > 0 ==> r[0] == ' '
  {
    if |ks| == 0 then "" else AttrText(ks[0], attrs[ks[0]]) + AttrsText(ks[1..], attrs)
  }

  /** `_output_attributes`. */
  function RenderAttrs(attrs: map<string, string>): (r: string)
    ensures r == "" <==> |attrs| == 0
    ensures r != "" ==> r[0] == ' '
  {
    var ks := AttrOrder(attrs.Keys);
    assert |attrs| > 0 ==> exists k :: k in attrs.Keys;
    assert |ks| == 0 ==> attrs.Keys == {};
    AttrsText(AttrOrder(attrs.Keys), attrs)
  }

  // ----- Reading attributes back ----------------------------------------

  /** The text before the first `c` and the text after it. */
  function SplitAt(s: string, c: char): (r: Option<(string, string)>)
    ensures r.Some? ==> |r.value.1| < |s|
  {
    if |s| == 0 then None
    else if s[0] == c then Some(([], s[1..]))
    else match SplitAt(s[1..], c)
      case None => None
      case Some(p) => Some(([s[0]] + p.0, p.1))
  }

  lemma {:induction false} SplitAtConcat(a: string, c: char, b: string)
    requires c !in a
    ensures SplitAt(a + [c] + b, c) == Some((a, b))
  {
    if |a| > 0 {
      assert (a + [c] + b)[1..] == a[1..] + [c] + b;
      SplitAtConcat(a[1..], c, b);
      assert [a[0]] + a[1..] == a;
    } else {
      assert a + [c] + b == [c] + b;
    }
  }

  /** Reads a sequence of ` key="value"` items back into key/value pairs. */
  function ParseAttrs(s: string): Option<seq<(string, string)>>
    decreases |s|
  {
    if |s| == 0 then Some([])
    else if s[0] != ' ' then None
    else match SplitAt(s[1..], '=')
      case None => None
      case Some(kr) =>
        var k := kr.0;
        var r1 := kr.1;
        if |r1| == 0 || r1[0] != '"' then None
        else match SplitAt(r1[1..], '"')
          case None => None
          case Some(vr) =>
            match ParseAttrs(vr.1)
            case None => None
            case Some(ps) => Some([(k, vr.0)] + ps)
  }

  /** Keys and values that survive the unescaped rendering. */
  predicate Recoverable(attrs: map<string, string>)
  {
    forall k | k in attrs :: '=' !in k && '"' !in attrs[k]
  }

  function Pairs(ks: seq<string>, attrs: map<string, string>): (r: seq<(string, string)>)
    requires forall k | k in ks :: k in attrs
    ensures |r| == |ks|
    ensures forall j | 0 <= j < |ks| :: r[j] == (ks[j], attrs[ks[j]])
  {
    if |ks| == 0 then [] else [(ks[0], attrs[ks[0]])] + Pairs(ks[1..], attrs)
  }

  lemma {:induction false} ParseAttrsText(ks: seq<string>, attrs: map<string, string>)
    requires forall k | k in ks :: k in attrs
    requires Recoverable(attrs)
    ensures ParseAttrs(AttrsText(ks, attrs)) == Some(Pairs(ks, attrs))
  {
    if |ks| > 0 {
      var k := ks[0];
      var v := attrs[k];
      var rest := AttrsText(ks[1..], attrs);
      var s := AttrText(k, v) + rest;
      assert s[1..] == k + ['='] + ("\"" + v + "\"" + rest);
      SplitAtConcat(k, '=', "\"" + v + "\"" + rest);
      var r1 := "\"" + v + "\"" + rest;
      assert r1[1..] == v + ['"'] + rest;
      SplitAtConcat(v, '"', rest);
      ParseAttrsText(ks[1..], attrs);
    }
  }

  /**
   * The rendered attributes read back to exactly the node's attribute map,
   * each key once, in canonical order (when no key holds `=` and no value a
   * quote, since nothing is escaped).
   */
  lemma RenderAttrsRoundTrip(attrs: map<string, string>)
    requires Recoverable(attrs)
    ensures ParseAttrs(RenderAttrs(attrs)).Some?
    ensures var ps := ParseAttrs(RenderAttrs(attrs)).value;
      && |ps| == |AttrOrder(attrs.Keys)|
      && (forall j | 0 <= j < |ps| :: ps[j].0 == AttrOrder(attrs.Keys)[j] && ps[j].1 == attrs[ps[j].0])
      && (forall k :: k in attrs <==> exists j | 0 <= j < |ps| :: ps[j].0 == k)
  {
    var ks := AttrOrder(attrs.Keys);
    ParseAttrsText(ks, attrs);
    var ps := Pairs(ks, attrs);
    forall k | k in attrs
      ensures exists j | 0 <= j < |ps| :: ps[j].0 == k
    {
      var j :| 0 <= j < |ks| && ks[j] == k;
      assert ps[j].0 == k;
    }
  }

  // ----- Elements --------------------------------------------------------

  /** `<tag attrs`, shared by all three forms. */
  function OpenTag(n: Node): string
  {
    "<" + Tag(n.kind) + RenderAttrs(n.attrs)
  }

  function CloseTag(n: Node): string
  {
    "</" + Tag(n.kind) + ">"
  }

  /** The opening line of the nested form, without indent. */
  function StartTag(n: Node): string
  {
    OpenTag(n) + ">"
  }

  /** The single line of a childless element, without indent. */
  function LeafLine(n: Node): string
  {
    if Truthy(n.value) then OpenTag(n) + ">" + n.value.value + CloseTag(n)
    else OpenTag(n) + " />"
  }

  /**
   * The lines of `_output_element` at indent `i`: nested form when there are
   * children (text ignored), inline text form for non-empty text, otherwise
   * self-closing.
   */
  function RenderLines(n: Node, i: nat): (r: seq<string>)
    ensures |r| > 0
    ensures |r| == 1 <==> !HasChildren(n)
    decreases n, 1
  {
    if HasChildren(n) then
      [Pad(i) + StartTag(n)] + RenderChildren(n.children, i + 4) + [Pad(i) + CloseTag(n)]
    else
      [Pad(i) + LeafLine(n)]
  }

  function RenderChildren(cs: seq<Node>, i: nat): (r: seq<string>)
    ensures |r| >= |cs|
    decreases cs, 0
  {
    if |cs| == 0 then [] else RenderLines(cs[0], i) + RenderChildren(cs[1..], i)
  }

  lemma {:induction false} RenderChildrenAppend(cs: seq<Node>, c: Node, i: nat)
    ensures RenderChildren(cs + [c], i) == RenderChildren(cs, i) + RenderLines(c, i)
    decreases |cs|
  {
    if |cs| == 0 {
      assert cs + [c] == [c];
      assert RenderChildren([c], i) == RenderLines(c, i) + RenderChildren([], i);
    } else {
      assert (cs + [c])[1..] == cs[1..] + [c];
      RenderChildrenAppend(cs[1..], c, i);
    }
  }

  /** Lines joined with a newline between them and none after the last. */
  function Join(ls: seq<string>): string
  {
    if |ls| == 0 then ""
    else if |ls| == 1 then ls[0]
    else ls[0] + "\n" + Join(ls[1..])
  }

  /** The canonical text of a tree, from the root at indent 0: it opens with `<` and closes with `>`. */
  function Render(n: Node): (r: string)
    ensures |r| > 0 && r[0] == '<' && r[|r| - 1] == '>'
  {
    LinesFramed(n, 0);
    JoinEnds(RenderLines(n, 0));
    Join(RenderLines(n, 0))
  }

  // ----- The stateful outputter -----------------------------------------

  /** `XmlOutputter`'s state: the current indent and the lines printed so far. */
  datatype State = State(indent: nat, content: seq<string>)

  function Println(o: State, s: string): State
  {
    o.(content := o.content + [Pad(o.indent) + s])
  }

  function AddIndent(o: State): State
  {
    o.(indent := o.indent + 4)
  }

  /** Never lets the indent go below zero. */
  function RemoveIndent(o: State): State
  {
    if o.indent - 4 >= 0 then o.(indent := o.indent - 4) else o
  }

  /** `_output_element`: prints the node's lines at the current indent and restores it. */
  method OutputElement(o: State, n: Node) returns (r: State)
    ensures r.indent == o.indent
    ensures r.content == o.content + RenderLines(n, o.indent)
    decreases n, 1
  {
    if HasChildren(n) {
      var cur := Println(o, StartTag(n));
      cur := AddIndent(cur);
      cur := OutputChildren(cur, n.children);
      cur := RemoveIndent(cur);
      r := Println(cur, CloseTag(n));
    } else {
      r := Println(o, LeafLine(n));
    }
  }

  /** The loop over `model.children()`, each child printed at the current indent. */
  method OutputChildren(o: State, cs: seq<Node>) returns (r: State)
    ensures r.indent == o.indent
    ensures r.content == o.content + RenderChildren(cs, o.indent)
    decreases cs, 0
  {
    r := o;
    var j := 0;
    assert cs[..j] == [];
    while j < |cs|
      invariant 0 <= j <= |cs|
      invariant r.indent == o.indent
      invariant r.content == o.content + RenderChildren(cs[..j], o.indent)
    {
      r := OutputElement(r, cs[j]);
      ChildrenStep(cs, j, o.indent);
      j := j + 1;
    }
    assert cs[..j] == cs;
  }

  /** One more child rendered: the lines of the first `j + 1` children extend those of the first `j`. */
  lemma ChildrenStep(cs: seq<Node>, j: nat, i: nat)
    requires j < |cs|
    ensures RenderChildren(cs[..j + 1], i) == RenderChildren(cs[..j], i) + RenderLines(cs[j], i)
  {
    assert cs[..j + 1] == cs[..j] + [cs[j]];
    RenderChildrenAppend(cs[..j], cs[j], i);
  }

  /** `output` on a fresh outputter: the rendered lines joined by newlines. */
  method Output(n: Node) returns (text: string)
    ensures text == Render(n)
  {
    var o := OutputElement(State(0, []), n);
    assert o.content == RenderLines(n, 0);
    text := Join(o.content);
  }

  // ----- Properties of the rendering ------------------------------------

  /** Number of elements in a tree. */
  function Size(n: Node): nat
    decreases n, 1
  {
    1 + SizeAll(n.children)
  }

  function SizeAll(cs: seq<Node>): nat
    decreases cs, 0
  {
    if |cs| == 0 then 0 else Size(cs[0]) + SizeAll(cs[1..])
  }

  /** Number of elements in a tree that have children. */
  function Containers(n: Node): nat
    decreases n, 1
  {
    (if HasChildren(n) then 1 else 0) + ContainersAll(n.children)
  }

  function ContainersAll(cs: seq<Node>): nat
    decreases cs, 0
  {
    if |cs| == 0 then 0 else Containers(cs[0]) + ContainersAll(cs[1..])
  }

  /** One line per element, plus one closing line per element that has children. */
  lemma {:induction false} LineCount(n: Node, i: nat)
    ensures |RenderLines(n, i)| == Size(n) + Containers(n)
    decreases n, 1
  {
    LineCountAll(n.children, i + 4);
  }

  lemma {:induction false} LineCountAll(cs: seq<Node>, i: nat)
    ensures |RenderChildren(cs, i)| == SizeAll(cs) + ContainersAll(cs)
    decreases cs, 0
  {
    if |cs| > 0 {
      LineCount(cs[0], i);
      LineCountAll(cs[1..], i);
    }
  }

  /** A line printed at indent `i` or deeper, closed by `>`. */
  predicate Framed(l: string, i: nat)
  {
    |l| > i && l[..i] == Pad(i) && l[|l| - 1] == '>'
  }

  /**
   * Every line is indented at least as far as its element, and a node's first
   * and last lines sit exactly at its indent and start a tag.
   */
  lemma {:induction false} LinesFramed(n: Node, i: nat)
    ensures |RenderLines(n, i)| > 0
    ensures forall l | l in RenderLines(n, i) :: Framed(l, i)
    ensures RenderLines(n, i)[0][i] == '<'
    ensures var ls := RenderLines(n, i); ls[|ls| - 1][i] == '<'
    decreases n, 1
  {
    TagShapes(n);
    if HasChildren(n) {
      var head, mid, last := Pad(i) + StartTag(n), RenderChildren(n.children, i + 4), Pad(i) + CloseTag(n);
      PadFramed(StartTag(n), i);
      PadFramed(CloseTag(n), i);
      ChildrenFramed(n.children, i + 4);
      FramedDeeper(mid, i);
      FramedBetween(head, mid, last, i);
      assert RenderLines(n, i) == [head] + mid + [last];
    } else {
      PadFramed(LeafLine(n), i);
    }
  }

  /** Framed lines stay framed when bracketed by two more framed lines. */
  lemma FramedBetween(head: string, mid: seq<string>, last: string, i: nat)
    requires Framed(head, i) && Framed(last, i)
    requires forall l | l in mid :: Framed(l, i)
    ensures var ls := [head] + mid + [last];
      && (forall l | l in ls :: Framed(l, i))
      && ls[0] == head && ls[|ls| - 1] == last
  {
  }

  /** A tag line starts with `<` and ends with `>`. */
  predicate TagShaped(t: string)
  {
    |t| > 0 && t[0] == '<' && t[|t| - 1] == '>'
  }

  lemma TagShapes(n: Node)
    ensures TagShaped(StartTag(n)) && TagShaped(CloseTag(n)) && TagShaped(LeafLine(n))
  {
    OpenShaped(n);
    Bracketed(OpenTag(n), ">");
    Bracketed("</" + Tag(n.kind), ">");
    LeafShaped(n);
  }

  /** The opening tag starts with `<`. */
  lemma OpenShaped(n: Node)
    ensures |OpenTag(n)| > 0 && OpenTag(n)[0] == '<'
  {
  }

  lemma LeafShaped(n: Node)
    ensures TagShaped(LeafLine(n))
  {
    OpenShaped(n);
    if Truthy(n.value) {
      Bracketed(OpenTag(n) + ">" + n.value.value, CloseTag(n));
    } else {
      Bracketed(OpenTag(n), " />");
    }
  }

  /** A line opening with `<` and closing with `>` keeps both ends when joined. */
  lemma Bracketed(a: string, b: string)
    requires |a| > 0 && a[0] == '<' && |b| > 0 && b[|b| - 1] == '>'
    ensures TagShaped(a + b)
  {
  }

  /** Lines framed one level deeper are framed at this level too. */
  lemma FramedDeeper(ls: seq<string>, i: nat)
    requires forall l | l in ls :: Framed(l, i + 4)
    ensures forall l | l in ls :: Framed(l, i)
  {
    forall l | l in ls
      ensures Framed(l, i)
    {
      assert l[..i] == l[..i + 4][..i];
    }
  }

  /** A tag line indented by `i` is framed at `i`, with its `<` in column `i`. */
  lemma PadFramed(t: string, i: nat)
    requires TagShaped(t)
    ensures Framed(Pad(i) + t, i) && (Pad(i) + t)[i] == '<'
  {
    assert (Pad(i) + t)[..i] == Pad(i);
  }

  lemma {:induction false} ChildrenFramed(cs: seq<Node>, i: nat)
    ensures forall l | l in RenderChildren(cs, i) :: Framed(l, i)
    decreases cs, 0
  {
    if |cs| > 0 {
      LinesFramed(cs[0], i);
      ChildrenFramed(cs[1..], i);
    }
  }

  /** With children present the stored text never reaches the output. */
  lemma TextIgnoredWithChildren(n: Node, v: Option<string>, i: nat)
    requires HasChildren(n)
    ensures RenderLines(n.(value := v), i) == RenderLines(n, i)
  {
  }

  /** The canonical text starts a tag and ends one: there is no trailing newline. */
  lemma {:induction false} JoinEnds(ls: seq<string>)
    requires |ls| > 0 && forall l | l in ls :: |l| > 0
    ensures |Join(ls)| > 0
    ensures Join(ls)[0] == ls[0][0]
    ensures Join(ls)[|Join(ls)| - 1] == ls[|ls| - 1][|ls[|ls| - 1]| - 1]
  {
    assert ls[0] in ls;
    if |ls| > 1 {
      var tail := ls[1..];
      assert forall l | l in tail :: l in ls;
      JoinEnds(tail);
      var rest := Join(tail);
      assert Join(ls) == ls[0] + "\n" + rest;
      assert tail[|tail| - 1] == ls[|ls| - 1];
    }
  }
}

=== FILE: scenarios.dfy ===
/**
 * Concrete configurations taken from the repository's unit tests, worked
 * through the model.
 */
module Scenarios {
  import opened Wrappers
  import opened Catalog
  import opened Tree
  import opened Builder
  import opened Outputter
  import opened StringOrder
  import Variants
  import AdminTask

  const TestFeatures: seq<string> := ["servlet-3.0", "jsp-2.2", "jsp-2.2"]

  /** An element without attributes renders no attribute text. */
  lemma NoAttrs(n: Node)
    requires n.attrs == map[]
    ensures OpenTag(n) == "<" + Tag(n.kind)
  {
    assert n.attrs.Keys - {IdKey} == {};
    assert AttrOrder(n.attrs.Keys) == [];
  }

  /** The line of a childless feature with non-empty text, one level in. */
  lemma FeatureLine(v: string)
    requires v != ""
    ensures RenderLines(Variants.Entry(Variants.ByValue, v), 4) == ["    <feature>" + v + "</feature>"]
  {
    var e := Variants.Entry(Variants.ByValue, v);
    FeatureLeaf(v);
    assert !HasChildren(e);
    assert Pad(4) == "    ";
    FeatureIndented(v);
  }

  /** A feature with non-empty text is one inline text element. */
  lemma FeatureLeaf(v: string)
    requires v != ""
    ensures LeafLine(Variants.Entry(Variants.ByValue, v)) == "<feature>" + v + "</feature>"
  {
    var e := Variants.Entry(Variants.ByValue, v);
    NoAttrs(e);
    assert LeafLine(e) == "<feature" + ">" + v + "</feature>";
    assert "<feature" + ">" + v + "</feature>" == "<feature>" + v + "</feature>";
  }

  lemma FeatureIndented(v: string)
    ensures "    " + ("<feature>" + v + "</feature>") == "    <feature>" + v + "</feature>"
  {
    assert "    " + "<feature>" == "    <feature>";
  }

  lemma FeatureLines()
    ensures "    <feature>" + "servlet-3.0" + "</feature>" == "    <feature>servlet-3.0</feature>"
    ensures "    <feature>" + "jsp-2.2" + "</feature>" == "    <feature>jsp-2.2</feature>"
  {
  }

  lemma JoinFour(a: string, b: string, c: string, d: string)
    ensures Join([a, b, c, d]) == a + "\n" + b + "\n" + c + "\n" + d
  {
    assert [a, b, c, d][1..] == [b, c, d];
    assert [b, c, d][1..] == [c, d];
    assert [c, d][1..] == [d];
    assert Join([c, d]) == c + "\n" + d;
    assert Join([b, c, d]) == b + "\n" + (c + "\n" + d);
    assert Join([a, b, c, d]) == a + "\n" + (b + "\n" + (c + "\n" + d));
  }

  /** The test's manager lists `servlet-3.0` and then `jsp-2.2`, the repeat dropped. */
  lemma FeatureManagerChildren()
    ensures Variants.AddFeatures(Empty(FeatureManager), TestFeatures).children ==
      [Variants.Entry(Variants.ByValue, "servlet-3.0"), Variants.Entry(Variants.ByValue, "jsp-2.2")]
  {
    assert TestFeatures[..2] == ["servlet-3.0", "jsp-2.2"];
    assert TestFeatures[..1] == ["servlet-3.0"];
    assert TestFeatures[..0] == [];
    assert Variants.Novel([], TestFeatures[..1]) == ["servlet-3.0"];
    assert Variants.Novel([], TestFeatures[..2]) == ["servlet-3.0", "jsp-2.2"];
    assert Variants.Novel([], TestFeatures) == ["servlet-3.0", "jsp-2.2"];
  }

  /** The lines the test's manager renders to. */
  lemma FeatureManagerLines()
    ensures RenderLines(Variants.AddFeatures(Empty(FeatureManager), TestFeatures), 0) ==
      ["<featureManager>", "    <feature>servlet-3.0</feature>", "    <feature>jsp-2.2</feature>", "</featureManager>"]
  {
    var fm := Variants.AddFeatures(Empty(FeatureManager), TestFeatures);
    FeatureManagerChildren();
    FeatureChildLines();
    assert HasChildren(fm);
    ManagerOpen(fm);
    ManagerClose(fm);
  }

  /** The test's two features, one line each, one level in. */
  lemma FeatureChildLines()
    ensures RenderChildren([Variants.Entry(Variants.ByValue, "servlet-3.0"), Variants.Entry(Variants.ByValue, "jsp-2.2")], 4)
      == ["    <feature>servlet-3.0</feature>", "    <feature>jsp-2.2</feature>"]
  {
    var a := Variants.Entry(Variants.ByValue, "servlet-3.0");
    var b := Variants.Entry(Variants.ByValue, "jsp-2.2");
    FeatureLine("servlet-3.0");
    FeatureLine("jsp-2.2");
    FeatureLines();
    assert [a, b][1..] == [b];
    assert RenderChildren([b], 4) == RenderLines(b, 4) + RenderChildren([], 4);
    assert RenderChildren([a, b], 4) == RenderLines(a, 4) + RenderChildren([b], 4);
  }

  /** The opening line of an attribute-free feature manager at indent 0. */
  lemma ManagerOpen(fm: Node)
    requires fm.kind == FeatureManager && fm.attrs == map[]
    ensures Pad(0) + StartTag(fm) == "<featureManager>"
  {
    assert Pad(0) == "";
    NoAttrs(fm);
    assert "<" + "featureManager" + ">" == "<featureManager>";
  }

  /** The closing line of a feature manager at indent 0. */
  lemma ManagerClose(fm: Node)
    requires fm.kind == FeatureManager
    ensures Pad(0) + CloseTag(fm) == "</featureManager>"
  {
    assert Pad(0) == "";
    assert "</" + "featureManager" + ">" == "</featureManager>";
  }

  /**
   * The outputter test's feature manager: the repeated `jsp-2.2` is listed
   * once, and the manager renders as a nested element with one text line
   * per feature.
   */
  lemma FeatureManagerScenario()
    ensures var fm := Variants.AddFeatures(Empty(FeatureManager), TestFeatures);
      && Variants.ListFeatures(fm) == [Some("servlet-3.0"), Some("jsp-2.2")]
      && Render(fm) == "<featureManager>" + "\n" + "    <feature>servlet-3.0</feature>" + "\n"
                       + "    <feature>jsp-2.2</feature>" + "\n" + "</featureManager>"
  {
    var fm := Variants.AddFeatures(Empty(FeatureManager), TestFeatures);
    FeatureManagerChildren();
    var a := Variants.Entry(Variants.ByValue, "servlet-3.0");
    var b := Variants.Entry(Variants.ByValue, "jsp-2.2");
    assert [a, b][1..] == [b];
    assert Variants.ListFeatures(fm) == Variants.Labels([a, b], Variants.ByValue);
    FeatureManagerLines();
    JoinFour("<featureManager>", "    <feature>servlet-3.0</feature>", "    <feature>jsp-2.2</feature>", "</featureManager>");
  }

  /** Adding the test's features to that manager again changes nothing. */
  lemma FeatureManagerRepeat()
    ensures var fm := Variants.AddFeatures(Empty(FeatureManager), TestFeatures);
      Variants.AddFeatures(fm, ["jsp-2.2"]) == fm
  {
    var fm := Variants.AddFeatures(Empty(FeatureManager), TestFeatures);
    Variants.AddFeaturesTwice(Empty(FeatureManager), TestFeatures, ["jsp-2.2"]);
    Variants.AddFeaturesIdempotent(Empty(FeatureManager), TestFeatures);
    assert Variants.Novel(Variants.ListFeatures(fm), ["jsp-2.2"]) == [];
  }

  /** The data source of the DB2 test: `id` first, then the other keys ascending. */
  lemma DatasourceAttributeOrder()
    ensures AttrOrder({IdKey, IsolationLevelKey, JndiKey, JdbcDriverRefKey}) == ["id", "isolationLevel", "jdbcDriverRef", "jndiName"]
  {
    var ks := ["id", "isolationLevel", "jdbcDriverRef", "jndiName"];
    var keys := {IdKey, IsolationLevelKey, JndiKey, JdbcDriverRefKey};
    assert Less("isolationLevel", "jdbcDriverRef");
    assert Less("dbcDriverRef", "ndiName");
    assert Less("jdbcDriverRef", "jndiName");
    assert Less("isolationLevel", "jndiName");
    assert StrictlySorted(ks[1..]);
    assert CanonicalOrder(ks, keys);
    CanonicalOrderUnique(ks, keys);
  }

  lemma NoTagStartsWithW(k: Kind)
    ensures |Tag(k)| > 0 && Tag(k)[0] != 'w'
  {
    match k
    case Server =>
    case FeatureManager =>
    case Feature =>
    case HttpEndpoint =>
    case BasicRegistry =>
    case User =>
    case Group =>
    case Member =>
    case Library =>
    case Fileset =>
    case JdbcDriver =>
    case Datasource =>
    case DatasourceProp =>
    case DB2JCCProp =>
    case OracleProp =>
    case Application =>
    case ApplicationBnd =>
    case SecurityRole =>
    case SSL =>
    case KeyStore =>
    case ManagedExecutorService =>
  }

  lemma NotRegistered(t: string)
    requires forall k: Kind :: Tag(k) != t
    ensures KindOf(t).None?
  {
  }

  /** A bare `<server>` builds to the empty server, and so meets the builder's success case. */
  lemma BareServerBuilds()
    ensures Build(XmlElement("server", map[], None, [])) == Success(Empty(Server))
  {
    KindOfTag(Server);
    assert Tag(Server) == "server";
  }

  /** A parse tree holding a tag no class registers is refused, naming that tag. */
  lemma UnknownChildScenario()
    ensures Build(XmlElement("server", map[], None, [
              XmlElement("featureManager", map[], None, []),
              XmlElement("webApplication", map[], None, [])])) == Failure(UnknownElement("webApplication"))
  {
    var fm := XmlElement("featureManager", map[], None, []);
    var web := XmlElement("webApplication", map[], None, []);
    var e := XmlElement("server", map[], None, [fm, web]);
    KindOfTag(Server);
    KindOfTag(FeatureManager);
    forall k: Kind
      ensures Tag(k) != "webApplication"
    {
      NoTagStartsWithW(k);
      assert "webApplication"[0] == 'w';
    }
    NotRegistered("webApplication");
    assert FirstUnknown(fm) == None;
    assert FirstUnknown(web) == Some("webApplication");
    assert [fm, web][1..] == [web];
    assert FirstUnknownIn([fm, web]) == Some("webApplication");
    BuildFailsOnFirstUnknown(e);
  }

  /** The DB2 property block is never found as the generic `properties` block. */
  lemma Db2BlockScenario()
    ensures var r := AdminTask.CreateDb2Datasource(Empty(Server), "jdbc/ilogDataSource", "db2-driver", "odmdb", "ilog",
                                                   "passw0rd", "localhost", "50000", Some("odm"), None);
      && Find(AdminTask.Last(r), DatasourceProp).None?
      && Find(AdminTask.Last(r), DB2JCCProp).Some?
      && Get(Find(AdminTask.Last(r), DB2JCCProp).value, SchemaKey) == Some("odm")
      && IsolationLevelKey !in AdminTask.Last(r).attrs
  {
    var r := AdminTask.CreateDb2Datasource(Empty(Server), "jdbc/ilogDataSource", "db2-driver", "odmdb", "ilog",
                                           "passw0rd", "localhost", "50000", Some("odm"), None);
    AdminTask.VendorBlockNotGeneric(AdminTask.Last(r), DB2JCCProp);
  }

  /** The registry of the scenario after `create_basic_registry` and `create_group`. */
  lemma RegistryWithGroup()
    ensures var r1 := AdminTask.CreateBasicRegistry(Empty(Server), "basic", "customRealm");
      && AdminTask.CreateGroup(r1, "resDeployers").Success?
      && AdminTask.UserRegistry(AdminTask.CreateGroup(r1, "resDeployers").value).children == [Named(Group, "resDeployers")]
  {
    var r1 := AdminTask.CreateBasicRegistry(Empty(Server), "basic", "customRealm");
    assert r1.children == [AdminTask.Last(r1)];
    assert AdminTask.UserRegistry(r1) == AdminTask.Last(r1);
    assert AdminTask.NamesOf(AdminTask.UserRegistry(r1), Group) == [];
  }

  /** The server has a registry whose first child is group `resDeployers` listing `seen`. */
  predicate FirstGroupLists(root: Node, seen: seq<Option<string>>)
  {
    && Find(root, BasicRegistry).Some?
    && |AdminTask.UserRegistry(root).children| > 0
    && var g := AdminTask.UserRegistry(root).children[0];
      g.kind == Group && Get(g, NameKey) == Some("resDeployers") && Variants.ListMembers(g) == seen
  }

  /** One `add_user_to_group` on a registry whose first child is the named group. */
  lemma JoinFirstGroup(root: Node, user: string, seen: seq<Option<string>>)
    requires FirstGroupLists(root, seen)
    requires Some(user) !in seen
    ensures AdminTask.AddUserToGroup(root, user, "resDeployers").Success?
    ensures FirstGroupLists(AdminTask.AddUserToGroup(root, user, "resDeployers").value, seen + [Some(user)])
  {
  }

  /** Users need a registry: on a bare server `create_user` fails. */
  lemma RegistryRequired()
    ensures AdminTask.CreateUser(Empty(Server), "resAdmin", "resAdmin_pwd") == Failure(AdminTask.MissingBasicRegistry)
  {
  }

  /** Two joins of distinct users to a first group that has no members yet. */
  lemma TwoJoins(r2: Node, a: string, b: string)
    requires FirstGroupLists(r2, [])
    requires a != b
    ensures AdminTask.AddUserToGroup(r2, a, "resDeployers").Success?
    ensures var r3 := AdminTask.AddUserToGroup(r2, a, "resDeployers").value;
      && AdminTask.AddUserToGroup(r3, b, "resDeployers").Success?
      && FirstGroupLists(AdminTask.AddUserToGroup(r3, b, "resDeployers").value, [Some(a), Some(b)])
  {
    JoinFirstGroup(r2, a, []);
    var r3 := AdminTask.AddUserToGroup(r2, a, "resDeployers").value;
    assert FirstGroupLists(r3, [Some(a)]) by {
      assert [] + [Some(a)] == [Some(a)];
    }
    JoinFirstGroup(r3, b, [Some(a)]);
    assert [Some(a)] + [Some(b)] == [Some(a), Some(b)];
  }

  /** With a registry, members join the named group in call order. */
  lemma RegistryScenario()
    ensures var r1 := AdminTask.CreateBasicRegistry(Empty(Server), "basic", "customRealm");
      var r2 := AdminTask.CreateGroup(r1, "resDeployers").value;
      var r3 := AdminTask.AddUserToGroup(r2, "resAdmin", "resDeployers").value;
      var r4 := AdminTask.AddUserToGroup(r3, "resDeploy", "resDeployers").value;
      Variants.ListMembers(AdminTask.UserRegistry(r4).children[0]) == [Some("resAdmin"), Some("resDeploy")]
  {
    var r1 := AdminTask.CreateBasicRegistry(Empty(Server), "basic", "customRealm");
    RegistryWithGroup();
    var r2 := AdminTask.CreateGroup(r1, "resDeployers").value;
    assert Variants.ListMembers(Named(Group, "resDeployers")) == [];
    TwoJoins(r2, "resAdmin", "resDeploy");
  }
}

=== FILE: string_order.dfy ===
/**
 * The ordering Python's `sorted` uses on attribute keys, and the sorted
 * enumeration of a finite set of keys.
 */
module StringOrder {

  /** Python's `<` on `str`: lexicographic by code point, a proper prefix first. */
  predicate Less(a: string, b: string)
    decreases |a|
  {
    if |a| == 0 then |b| > 0
    else if |b| == 0 then false
    else a[0] < b[0] || (a[0] == b[0] && Less(a[1..], b[1..]))
  }

  lemma {:induction false} LessIrreflexive(a: string)
    ensures !Less(a, a)
    decreases |a|
  {
    if |a| > 0 {
      LessIrreflexive(a[1..]);
    }
  }

  lemma {:induction false} LessAsymmetric(a: string, b: string)
    requires Less(a, b)
    ensures !Less(b, a)
    decreases |a|
  {
    if |a| > 0 && |b| > 0 && a[0] == b[0] {
      LessAsymmetric(a[1..], b[1..]);
    }
  }

  lemma {:induction false} LessTransitive(a: string, b: string, c: string)
    requires Less(a, b) && Less(b, c)
    ensures Less(a, c)
    decreases |a|
  {
    if |a| > 0 && a[0] == b[0] && b[0] == c[0] {
      LessTransitive(a[1..], b[1..], c[1..]);
    }
  }

  lemma {:induction false} LessTotal(a: string, b: string)
    requires a != b
    ensures Less(a, b) || Less(b, a)
    decreases |a|
  {
    if |a| > 0 && |b| > 0 && a[0] == b[0] {
      assert a == [a[0]] + a[1..] && b == [b[0]] + b[1..];
      LessTotal(a[1..], b[1..]);
    }
  }

  /** Ascending without repetition. */
  predicate StrictlySorted(s: seq<string>)
  {
    forall i, j | 0 <= i < j < |s| :: Less(s[i], s[j])
  }

  /** `m` is the smallest element of `s`. */
  predicate IsLeast(m: string, s: set<string>)
  {
    m in s && forall x | x in s && x != m :: Less(m, x)
  }

  lemma {:induction false} LeastExists(s: set<string>)
    requires s != {}
    ensures exists m :: IsLeast(m, s)
    decreases s
  {
    var x :| x in s;
    var rest := s - {x};
    if rest == {} {
      assert s == {x};
      assert IsLeast(x, s);
    } else {
      LeastExists(rest);
      var m :| IsLeast(m, rest);
      if Less(x, m) {
        forall y | y in s && y != x
          ensures Less(x, y)
        {
          if y != m {
            LessTransitive(x, m, y);
          }
        }
        assert IsLeast(x, s);
      } else {
        LessTotal(x, m);
        assert IsLeast(m, s);
      }
    }
  }

  lemma LeastUnique(s: set<string>)
    ensures forall m1, m2 | IsLeast(m1, s) && IsLeast(m2, s) :: m1 == m2
  {
    forall m1, m2 | IsLeast(m1, s) && IsLeast(m2, s)
      ensures m1 == m2
    {
      if m1 != m2 {
        LessAsymmetric(m1, m2);
      }
    }
  }

  /** The keys of `s` in ascending order, as `sorted` yields them. */
  function SortedKeys(s: set<string>): (r: seq<string>)
    ensures StrictlySorted(r)
    ensures forall k :: k in r <==> k in s
    decreases s
  {
    if s == {} then []
    else
      LeastExists(s);
      LeastUnique(s);
      var m :| m in s && IsLeast(m, s);
      var rest := SortedKeys(s - {m});
      [m] + rest
  }

  lemma {:induction false} SortedHeadNotInTail(a: seq<string>)
    requires StrictlySorted(a) && |a| > 0
    ensures a[0] !in a[1..]
  {
    forall k | 1 <= k < |a|
      ensures a[k] != a[0]
    {
      assert Less(a[0], a[k]);
      LessIrreflexive(a[0]);
    }
  }

  lemma HeadIsMember(b: seq<string>)
    ensures |b| > 0 ==> b[0] in b
  {
  }

  /**
   * A strictly sorted sequence is determined by its elements: there is
   * exactly one canonical order for a set of keys.
   */
  lemma {:induction false} SortedUnique(a: seq<string>, b: seq<string>)
    requires StrictlySorted(a) && StrictlySorted(b)
    requires forall x :: x in a <==> x in b
    ensures a == b
    decreases |a|
  {
    if |a| == 0 {
      HeadIsMember(b);
    } else {
      assert a[0] in b;
      if a[0] != b[0] {
        assert b[0] in a;
        var i :| 0 <= i < |a| && a[i] == b[0];
        var j :| 0 <= j < |b| && b[j] == a[0];
        assert Less(a[0], b[0]);
        assert Less(b[0], a[0]);
        LessAsymmetric(a[0], b[0]);
        assert false;
      }
      SortedHeadNotInTail(a);
      SortedHeadNotInTail(b);
      forall x
        ensures x in a[1..] <==> x in b[1..]
      {
        assert x in a <==> x == a[0] || x in a[1..];
        assert x in b <==> x == b[0] || x in b[1..];
      }
      SortedUnique(a[1..], b[1..]);
    }
  }
}

=== FILE: tree.dfy ===
/**
 * The generic element node: attribute map, optional text, ordered children,
 * and the get/set/add/remove/find operations every variant inherits.
 */
module Tree {
  import opened Wrappers
  import opened Catalog

  /**
   * A configuration element. The kind fixes the tag; `value` is the text
   * (Python `None` or a string); children are owned, ordered and unshared.
   */
  datatype Node = Node(kind: Kind, attrs: map<string, string>, value: Option<string>, children: seq<Node>)

  /** A freshly constructed element: no attributes, no text, no children. */
  function Empty(k: Kind): Node
  {
    Node(k, map[], None, [])
  }

  /** An element whose `name` accessor has been set and nothing else. */
  function Named(k: Kind, name: string): Node
  {
    Node(k, map[NameKey := name], None, [])
  }

  function Get(n: Node, key: string): (r: Option<string>)
    ensures r.None? <==> key !in n.attrs
    ensures r.Some? ==> r.value == n.attrs[key]
  {
    if key in n.attrs then Some(n.attrs[key]) else None
  }

  /** Writing one attribute: it reads back, every other key and the rest of the node are kept. */
  function Set(n: Node, key: string, v: string): (r: Node)
    ensures Get(r, key) == Some(v)
    ensures forall k | k != key :: Get(r, k) == Get(n, k)
    ensures r.attrs.Keys == n.attrs.Keys + {key}
    ensures r.kind == n.kind && r.value == n.value && r.children == n.children
  {
    n.(attrs := n.attrs[key := v])
  }

  /** Appending a child at the end; no uniqueness is enforced. */
  function Add(n: Node, c: Node): (r: Node)
    ensures |r.children| == |n.children| + 1
    ensures r.children[..|n.children|] == n.children && r.children[|n.children|] == c
    ensures r.kind == n.kind && r.attrs == n.attrs && r.value == n.value
  {
    n.(children := n.children + [c])
  }

  predicate HasChildren(n: Node)
  {
    |n.children| > 0
  }

  /** Position of the first child equal to `c`. */
  function IndexOf(cs: seq<Node>, c: Node): (r: Option<nat>)
    ensures r.None? <==> c !in cs
    ensures r.Some? ==> r.value < |cs| && cs[r.value] == c && c !in cs[..r.value]
  {
    if |cs| == 0 then None
    else if cs[0] == c then Some(0)
    else match IndexOf(cs[1..], c)
      case None => None
      case Some(i) => assert cs[1..][..i] == cs[1..i + 1]; Some(i + 1)
  }

  /**
   * Removing a child: the first child equal to `c` is dropped, the others
   * keep their order; absent, the node is returned as it was.
   */
  function Remove(n: Node, c: Node): (r: Node)
    ensures c !in n.children ==> r == n
    ensures c in n.children ==> |r.children| == |n.children| - 1
    ensures c in n.children ==> multiset(r.children) == multiset(n.children) - multiset{c}
    ensures c in n.children ==>
      var i := IndexOf(n.children, c).value;
      r.children == n.children[..i] + n.children[i + 1..]
    ensures r.kind == n.kind && r.attrs == n.attrs && r.value == n.value
  {
    match IndexOf(n.children, c)
    case None => n
    case Some(i) =>
      var cs := n.children;
      assert cs == cs[..i] + [c] + cs[i + 1..];
      n.(children := cs[..i] + cs[i + 1..])
  }

  /** Removing a child that was just appended (and was not there before) undoes the append. */
  lemma RemoveUndoesAdd(n: Node, c: Node)
    requires c !in n.children
    ensures Remove(Add(n, c), c) == n
  {
    var cs := Add(n, c).children;
    assert IndexOf(cs, c) == Some(|n.children|);
    assert cs[..|n.children|] == n.children;
  }

  /** Position of the first child whose class is exactly `k`. */
  function FindIndex(cs: seq<Node>, k: Kind): (r: Option<nat>)
    ensures r.None? <==> forall j | 0 <= j < |cs| :: cs[j].kind != k
    ensures r.Some? ==> r.value < |cs| && cs[r.value].kind == k
    ensures r.Some? ==> forall j | 0 <= j < r.value :: cs[j].kind != k
  {
    if |cs| == 0 then None
    else if cs[0].kind == k then Some(0)
    else match FindIndex(cs[1..], k)
      case None => None
      case Some(i) => Some(i + 1)
  }

  /** `find`: the first child of exactly kind `k`, or nothing. */
  function Find(n: Node, k: Kind): (r: Option<Node>)
    ensures r.None? <==> forall c | c in n.children :: c.kind != k
    ensures r.Some? ==> r.value in n.children && r.value.kind == k
    ensures r.Some? ==> FindIndex(n.children, k).Some? && r.value == n.children[FindIndex(n.children, k).value]
  {
    match FindIndex(n.children, k)
    case None => None
    case Some(i) => Some(n.children[i])
  }

  /** The children of exactly kind `k`, in document order. */
  function FilterKind(cs: seq<Node>, k: Kind): (r: seq<Node>)
    ensures |r| <= |cs|
  {
    if |cs| == 0 then []
    else (if cs[0].kind == k then [cs[0]] else []) + FilterKind(cs[1..], k)
  }

  /** `find_all` keeps exactly the children of kind `k`: the exact class, no subclass matching. */
  lemma {:induction false} FilterKindMembers(cs: seq<Node>, k: Kind)
    ensures forall c :: c in FilterKind(cs, k) <==> c in cs && c.kind == k
  {
    if |cs| > 0 {
      FilterKindMembers(cs[1..], k);
      assert forall c :: c in cs <==> c == cs[0] || c in cs[1..];
    }
  }

  /**
   * `find_all`: exactly the children of kind `k`. Their document order is
   * stated by `FilterKindAppend` and `FindAllAdd`, its head by `FindIsFirstOfFindAll`.
   */
  function FindAll(n: Node, k: Kind): (r: seq<Node>)
    ensures forall c :: c in r <==> c in n.children && c.kind == k
    ensures |r| == CountKind(n.children, k) <= |n.children|
  {
    FilterKindMembers(n.children, k);
    FilterKind(n.children, k)
  }

  /** Appending a child puts it last among the children of its kind. */
  lemma FindAllAdd(n: Node, c: Node)
    ensures FindAll(Add(n, c), c.kind) == FindAll(n, c.kind) + [c]
  {
    FilterKindAppend(n.children, [c], c.kind);
    assert FilterKind([c], c.kind) == [c] + FilterKind([], c.kind);
  }

  function CountKind(cs: seq<Node>, k: Kind): nat
  {
    |FilterKind(cs, k)|
  }

  /** Filtering distributes over concatenation, so `find_all` keeps document order. */
  lemma {:induction false} FilterKindAppend(xs: seq<Node>, ys: seq<Node>, k: Kind)
    ensures FilterKind(xs + ys, k) == FilterKind(xs, k) + FilterKind(ys, k)
    decreases |xs|
  {
    if |xs| > 0 {
      assert (xs + ys)[1..] == xs[1..] + ys;
      FilterKindAppend(xs[1..], ys, k);
    } else {
      assert xs + ys == ys;
    }
  }

  /** `find` returns the head of `find_all`, and nothing exactly when `find_all` is empty. */
  lemma {:induction false} FindIsFirstOfFindAll(cs: seq<Node>, k: Kind)
    ensures FindIndex(cs, k).None? <==> FilterKind(cs, k) == []
    ensures FindIndex(cs, k).Some? ==> FilterKind(cs, k)[0] == cs[FindIndex(cs, k).value]
    decreases |cs|
  {
    if |cs| > 0 {
      var rest := FilterKind(cs[1..], k);
      if cs[0].kind == k {
        assert FilterKind(cs, k) == [cs[0]] + rest;
      } else {
        assert FilterKind(cs, k) == rest;
        FindIsFirstOfFindAll(cs[1..], k);
        match FindIndex(cs[1..], k)
        case None =>
        case Some(i) =>
          assert FindIndex(cs, k) == Some(i + 1);
          assert cs[i + 1] == cs[1..][i];
      }
    }
  }

  /** Replacing the `i`-th child, as an in-place edit of that child does. */
  function ReplaceChild(n: Node, i: nat, c: Node): (r: Node)
    requires i < |n.children|
    ensures |r.children| == |n.children| && r.children[i] == c
    ensures forall j | 0 <= j < |n.children| && j != i :: r.children[j] == n.children[j]
    ensures r.kind == n.kind && r.attrs == n.attrs && r.value == n.value
  {
    n.(children := n.children[i := c])
  }

  /** Replacing a child by one of the same kind keeps it the first of its kind. */
  lemma ReplaceKeepsFirst(n: Node, i: nat, c: Node)
    requires FindIndex(n.children, c.kind) == Some(i)
    ensures FindIndex(ReplaceChild(n, i, c).children, c.kind) == Some(i)
  {
    var cs := ReplaceChild(n, i, c).children;
    var r := FindIndex(cs, c.kind);
    assert r.Some?;
  }

  /** The first child of `created`'s kind, or `created` itself when there is none. */
  function FirstOr(n: Node, created: Node): (r: Node)
    ensures r.kind == created.kind
    ensures Find(n, created.kind).Some? ==> r == Find(n, created.kind).value
    ensures Find(n, created.kind).None? ==> r == created
  {
    match FindIndex(n.children, created.kind)
    case None => created
    case Some(i) => n.children[i]
  }

  /**
   * The find-or-create edit: `c`, an edited `FirstOr(n, created)`, takes the
   * place of the first child of its kind, or is appended when there is none.
   */
  function ReplaceFirst(n: Node, created: Node, c: Node): (r: Node)
    requires c.kind == created.kind
    ensures EditsFirst(n, r, c.kind)
    ensures c in r.children
  {
    match FindIndex(n.children, created.kind)
    case None =>
      FindIndexAppendNew(n.children, c);
      Add(n, c)
    case Some(i) =>
      ReplaceKeepsFirst(n, i, c);
      ReplaceChild(n, i, c)
  }

  /** A child appended where none had its kind is the first of its kind. */
  lemma FindIndexAppendNew(cs: seq<Node>, c: Node)
    requires FindIndex(cs, c.kind).None?
    ensures FindIndex(cs + [c], c.kind) == Some(|cs|)
  {
    var ds := cs + [c];
    assert ds[|cs|] == c;
    assert forall j | 0 <= j < |cs| :: ds[j] == cs[j];
  }

  /** Counting one kind after an in-place edit of a child that keeps its kind. */
  lemma {:induction false} CountReplace(cs: seq<Node>, i: nat, c: Node, k: Kind)
    requires i < |cs| && cs[i].kind == c.kind
    ensures CountKind(cs[i := c], k) == CountKind(cs, k)
    decreases |cs|
  {
    if i > 0 {
      assert cs[i := c][1..] == cs[1..][i - 1 := c];
      CountReplace(cs[1..], i - 1, c, k);
    } else {
      assert cs[i := c][1..] == cs[1..];
    }
  }

  lemma CountAppend(cs: seq<Node>, c: Node, k: Kind)
    ensures CountKind(cs + [c], k) == CountKind(cs, k) + (if c.kind == k then 1 else 0)
  {
    FilterKindAppend(cs, [c], k);
    assert FilterKind([c], k) == (if c.kind == k then [c] else []) + FilterKind([], k);
  }

  /**
   * After a find-or-create edit the edited child is what `find` returns, and
   * there is exactly one child of that kind if there was none, otherwise as
   * many as before.
   */
  lemma ReplaceFirstFound(n: Node, created: Node, c: Node)
    requires c.kind == created.kind
    ensures var r := ReplaceFirst(n, created, c);
      && Find(r, c.kind) == Some(c)
      && FirstOr(r, created) == c
      && CountKind(r.children, c.kind) == (if CountKind(n.children, c.kind) == 0 then 1 else CountKind(n.children, c.kind))
  {
    FindIsFirstOfFindAll(n.children, c.kind);
    match FindIndex(n.children, c.kind)
    case None => FoundAppended(n, created, c);
    case Some(i) => FoundInPlace(n, created, c, i);
  }

  /** The created case of `ReplaceFirstFound`. */
  lemma FoundAppended(n: Node, created: Node, c: Node)
    requires c.kind == created.kind && FindIndex(n.children, c.kind).None?
    ensures var r := ReplaceFirst(n, created, c);
      && FindIndex(r.children, c.kind) == Some(|n.children|)
      && r.children[|n.children|] == c
      && CountKind(r.children, c.kind) == CountKind(n.children, c.kind) + 1
  {
    assert ReplaceFirst(n, created, c).children == n.children + [c];
    FindIndexAppendNew(n.children, c);
    CountAppend(n.children, c, c.kind);
  }

  /** The found case of `ReplaceFirstFound`. */
  lemma FoundInPlace(n: Node, created: Node, c: Node, i: nat)
    requires c.kind == created.kind && FindIndex(n.children, c.kind) == Some(i)
    ensures var r := ReplaceFirst(n, created, c);
      && FindIndex(r.children, c.kind) == Some(i)
      && r.children[i] == c
      && CountKind(r.children, c.kind) == CountKind(n.children, c.kind)
  {
    ReplaceKeepsFirst(n, i, c);
    CountReplace(n.children, i, c, c.kind);
  }

  /**
   * `r` is `n` after a find-or-create edit of kind `k`: the node's own fields
   * are kept, one child is appended exactly when none had kind `k`, every
   * old child except the first of kind `k` stays where it was, and the edited
   * child is the first of kind `k`: in the old first one's slot, or appended.
   */
  ghost predicate EditsFirst(n: Node, r: Node, k: Kind)
  {
    && r.kind == n.kind && r.attrs == n.attrs && r.value == n.value
    && |r.children| == |n.children| + (if FindIndex(n.children, k).None? then 1 else 0)
    && (forall j | 0 <= j < |n.children| && FindIndex(n.children, k) != Some(j) :: r.children[j] == n.children[j])
    && FindIndex(r.children, k) == (if FindIndex(n.children, k).None? then Some(|n.children|) else FindIndex(n.children, k))
  }

  /** A find-or-create edit touches the first child of its kind and nothing else. */
  lemma ReplaceFirstFrame(n: Node, created: Node, c: Node)
    requires c.kind == created.kind
    ensures EditsFirst(n, ReplaceFirst(n, created, c), c.kind)
    ensures forall j | 0 <= j < |n.children| && n.children[j].kind != c.kind ::
      ReplaceFirst(n, created, c).children[j] == n.children[j]
  {
  }

  /** Replacing the first child of a kind by itself changes nothing. */
  lemma ReplaceFirstSame(n: Node, created: Node)
    requires FindIndex(n.children, created.kind).Some?
    ensures ReplaceFirst(n, created, FirstOr(n, created)) == n
  {
    var i := FindIndex(n.children, created.kind).value;
    assert n.children[i := n.children[i]] == n.children;
  }

  /** Every attribute key of every element is one its class's accessors use. */
  predicate WellKeyed(n: Node)
  {
    && (forall key | key in n.attrs :: key in DeclaredKeys(n.kind))
    && (forall c | c in n.children :: WellKeyed(c))
  }

  /** Setting one of the class's own keys keeps the element well keyed. */
  lemma WellKeyedSet(n: Node, key: string, v: string)
    ensures WellKeyed(n) && key in DeclaredKeys(n.kind) ==> WellKeyed(Set(n, key, v))
  {
  }

  /** Appending a well-keyed child to a well-keyed element keeps it well keyed. */
  lemma WellKeyedAdd(n: Node, c: Node)
    ensures WellKeyed(n) && WellKeyed(c) ==> WellKeyed(Add(n, c))
  {
    if WellKeyed(n) && WellKeyed(c) {
      forall x | x in Add(n, c).children
        ensures WellKeyed(x)
      {
        assert x in n.children || x == c;
      }
    }
  }

  /** Removing a child keeps the tree well keyed: what remains are old children. */
  lemma WellKeyedRemove(n: Node, c: Node)
    ensures WellKeyed(n) ==> WellKeyed(Remove(n, c))
  {
    if WellKeyed(n) && c in n.children {
      var r := Remove(n, c);
      forall d | d in r.children
        ensures WellKeyed(d)
      {
        assert d in multiset(r.children);
        assert d in multiset(n.children);
      }
    }
  }


  /** The child found or created is well keyed when both candidates are. */
  lemma WellKeyedFirstOr(n: Node, created: Node)
    ensures WellKeyed(n) && WellKeyed(created) ==> WellKeyed(FirstOr(n, created))
  {
  }

  /** The find-or-create edit keeps a well-keyed tree well keyed. */
  lemma WellKeyedReplaceFirst(n: Node, created: Node, c: Node)
    requires c.kind == created.kind
    ensures WellKeyed(n) && WellKeyed(c) ==> WellKeyed(ReplaceFirst(n, created, c))
  {
    if WellKeyed(n) && WellKeyed(c) {
      match FindIndex(n.children, created.kind)
      case None =>
        WellKeyedAdd(n, c);
      case Some(i) =>
        var r := ReplaceChild(n, i, c);
        forall x | x in r.children
          ensures WellKeyed(x)
        {
          var j :| 0 <= j < |r.children| && r.children[j] == x;
          if j != i {
            assert x in n.children;
          }
        }
    }
  }
}

=== FILE: variants.dfy ===
/**
 * Structural helpers some variants add over plain `add`: the de-duplicating
 * feature and member lists, the unconditional group/user lists of a
 * security role, and the lazily created application binding.
 */
module Variants {
  import opened Wrappers
  import opened Catalog
  import opened Tree

  /** Which field names an entry of a list: a feature's text or a member's `name`. */
  datatype Label = ByValue | ByName

  function LabelOf(c: Node, lab: Label): Option<string>
  {
    match lab
    case ByValue => c.value
    case ByName => Get(c, NameKey)
  }

  /** The listed names of the children, one per child, in order. */
  function Labels(cs: seq<Node>, lab: Label): (r: seq<Option<string>>)
    ensures |r| == |cs|
  {
    if |cs| == 0 then [] else [LabelOf(cs[0], lab)] + Labels(cs[1..], lab)
  }

  /** The child a list entry is made of: a `Feature` holding the text, or a `Member` with that name. */
  function Entry(lab: Label, name: string): (r: Node)
    ensures LabelOf(r, lab) == Some(name)
  {
    match lab
    case ByValue => Node(Feature, map[], Some(name), [])
    case ByName => Named(Member, name)
  }

  function Entries(lab: Label, names: seq<string>): (r: seq<Node>)
    ensures |r| == |names|
  {
    if |names| == 0 then [] else [Entry(lab, names[0])] + Entries(lab, names[1..])
  }

  function Lift(names: seq<string>): (r: seq<Option<string>>)
    ensures |r| == |names|
  {
    if |names| == 0 then [] else [Some(names[0])] + Lift(names[1..])
  }

  lemma {:induction false} LiftMember(names: seq<string>, x: string)
    ensures Some(x) in Lift(names) <==> x in names
  {
    if |names| > 0 {
      LiftMember(names[1..], x);
      assert names == [names[0]] + names[1..];
    }
  }

  lemma {:induction false} LabelsAppend(cs: seq<Node>, ds: seq<Node>, lab: Label)
    ensures Labels(cs + ds, lab) == Labels(cs, lab) + Labels(ds, lab)
  {
    if |cs| == 0 {
      assert cs + ds == ds;
    } else {
      assert (cs + ds)[1..] == cs[1..] + ds;
      LabelsAppend(cs[1..], ds, lab);
    }
  }

  /** Each listed label is the label of the child at the same position. */
  lemma {:induction false} LabelsAt(cs: seq<Node>, lab: Label)
    ensures forall j | 0 <= j < |cs| :: Labels(cs, lab)[j] == LabelOf(cs[j], lab)
  {
    if |cs| > 0 {
      LabelsAt(cs[1..], lab);
    }
  }

  /** One more child lists its label last. */
  lemma LabelsAppendOne(cs: seq<Node>, c: Node, lab: Label)
    ensures Labels(cs + [c], lab) == Labels(cs, lab) + [LabelOf(c, lab)]
  {
    LabelsAppend(cs, [c], lab);
    assert Labels([c], lab) == [LabelOf(c, lab)] + Labels([], lab);
  }


  lemma {:induction false} LabelsOfEntries(lab: Label, names: seq<string>)
    ensures Labels(Entries(lab, names), lab) == Lift(names)
  {
    if |names| > 0 {
      LabelsOfEntries(lab, names[1..]);
    }
  }

  lemma {:induction false} EntriesAppend(lab: Label, names: seq<string>, x: string)
    ensures Entries(lab, names + [x]) == Entries(lab, names) + [Entry(lab, x)]
  {
    if |names| == 0 {
      assert names + [x] == [x];
    } else {
      assert (names + [x])[1..] == names[1..] + [x];
      EntriesAppend(lab, names[1..], x);
    }
  }

  /** One loop iteration: append an entry for `name` unless the list already holds it. */
  function AddIfAbsent(n: Node, name: string, lab: Label): Node
  {
    if Some(name) in Labels(n.children, lab) then n else Add(n, Entry(lab, name))
  }

  /** The loop of `add_features` / `add_members`, over the names from first to last. */
  function AddDistinct(n: Node, names: seq<string>, lab: Label): Node
    decreases |names|
  {
    if |names| == 0 then n else AddDistinct(AddIfAbsent(n, names[0], lab), names[1..], lab)
  }

  /**
   * Reference definition of what the loop adds: each name that is neither
   * already listed in `seen` nor an earlier name of the same call.
   */
  function Novel(seen: seq<Option<string>>, names: seq<string>): seq<string>
    decreases |names|
  {
    if |names| == 0 then []
    else
      var init := names[..|names| - 1];
      var last := names[|names| - 1];
      Novel(seen, init) + (if Some(last) in seen || last in init then [] else [last])
  }

  lemma {:induction false} NovelMembers(seen: seq<Option<string>>, names: seq<string>)
    ensures forall x :: x in Novel(seen, names) <==> x in names && Some(x) !in seen
    decreases |names|
  {
    if |names| > 0 {
      var init := names[..|names| - 1];
      NovelMembers(seen, init);
      assert names == init + [names[|names| - 1]];
    }
  }

  /** No name is added twice. */
  lemma {:induction false} NovelDistinct(seen: seq<Option<string>>, names: seq<string>)
    ensures forall i, j | 0 <= i < j < |Novel(seen, names)| :: Novel(seen, names)[i] != Novel(seen, names)[j]
    decreases |names|
  {
    if |names| > 0 {
      var init := names[..|names| - 1];
      NovelDistinct(seen, init);
      NovelMembers(seen, init);
    }
  }

  /** Splitting the names splits the loop. */
  lemma {:induction false} AddDistinctAppend(n: Node, a: seq<string>, b: seq<string>, lab: Label)
    ensures AddDistinct(n, a + b, lab) == AddDistinct(AddDistinct(n, a, lab), b, lab)
    decreases |a|
  {
    if |a| == 0 {
      assert a + b == b;
    } else {
      assert (a + b)[0] == a[0] && (a + b)[1..] == a[1..] + b;
      AddDistinctAppend(AddIfAbsent(n, a[0], lab), a[1..], b, lab);
    }
  }

  /** The child list the loop produces: the old one followed by the entries of the novel names. */
  function AppendNovel(n: Node, names: seq<string>, lab: Label): Node
  {
    n.(children := n.children + Entries(lab, Novel(Labels(n.children, lab), names)))
  }

  /** After the earlier names, a name is listed exactly when it was listed before or is one of them. */
  lemma ListedAfter(n: Node, init: seq<string>, x: string, lab: Label)
    ensures Some(x) in Labels(AppendNovel(n, init, lab).children, lab) <==> Some(x) in Labels(n.children, lab) || x in init
  {
    var seen := Labels(n.children, lab);
    var nov := Novel(seen, init);
    LabelsAppend(n.children, Entries(lab, nov), lab);
    LabelsOfEntries(lab, nov);
    LiftMember(nov, x);
    NovelMembers(seen, init);
  }

  /** The last name of the loop, given what the earlier names did. */
  lemma AddDistinctLastStep(n: Node, init: seq<string>, last: string, lab: Label)
    ensures AddIfAbsent(AppendNovel(n, init, lab), last, lab) == AppendNovel(n, init + [last], lab)
  {
    var seen := Labels(n.children, lab);
    NovelSnoc(seen, init, last);
    ListedAfter(n, init, last, lab);
    if Some(last) in seen || last in init {
      assert Novel(seen, init + [last]) == Novel(seen, init) + [] == Novel(seen, init);
      assert Some(last) in Labels(AppendNovel(n, init, lab).children, lab);
    } else {
      LastStepNovel(n, init, last, lab);
    }
  }

  /** One more name extends the novel names by it exactly when it is new. */
  lemma NovelSnoc(seen: seq<Option<string>>, init: seq<string>, last: string)
    ensures Novel(seen, init + [last]) == Novel(seen, init) + (if Some(last) in seen || last in init then [] else [last])
  {
    var names := init + [last];
    assert names[..|names| - 1] == init && names[|names| - 1] == last;
  }

  /** A last name not listed before and not given earlier adds one entry at the end. */
  lemma LastStepNovel(n: Node, init: seq<string>, last: string, lab: Label)
    requires Some(last) !in Labels(n.children, lab) && last !in init
    ensures AppendNovel(n, init + [last], lab) == Add(AppendNovel(n, init, lab), Entry(lab, last))
  {
    var nov := Novel(Labels(n.children, lab), init);
    NovelSnoc(Labels(n.children, lab), init, last);
    EntriesAppend(lab, nov, last);
    assert n.children + Entries(lab, nov + [last]) == (n.children + Entries(lab, nov)) + [Entry(lab, last)];
  }

  /**
   * The loop appends exactly the novel names, in input order, after the
   * untouched existing children; nothing else about the node changes.
   */
  lemma {:induction false} AddDistinctAppendsNovel(n: Node, names: seq<string>, lab: Label)
    ensures AddDistinct(n, names, lab) == AppendNovel(n, names, lab)
    decreases |names|
  {
    if |names| == 0 {
      assert n.children + [] == n.children;
    } else {
      var init := names[..|names| - 1];
      var last := names[|names| - 1];
      assert names == init + [last];
      AddDistinctAppend(n, init, [last], lab);
      AddDistinctAppendsNovel(n, init, lab);
      AddDistinctLastStep(n, init, last, lab);
    }
  }

  /** When every name is already listed the loop changes nothing. */
  lemma {:induction false} AddDistinctNoop(n: Node, names: seq<string>, lab: Label)
    requires forall x | x in names :: Some(x) in Labels(n.children, lab)
    ensures AddDistinct(n, names, lab) == n
    decreases |names|
  {
    if |names| > 0 {
      AddDistinctNoop(n, names[1..], lab);
    }
  }

  /** What the loop does to the listed names: the novel names are appended, and then every name is listed. */
  lemma AddDistinctLabels(n: Node, names: seq<string>, lab: Label)
    ensures var r := AddDistinct(n, names, lab);
      && Labels(r.children, lab) == Labels(n.children, lab) + Lift(Novel(Labels(n.children, lab), names))
      && forall x | x in names :: Some(x) in Labels(r.children, lab)
  {
    var seen := Labels(n.children, lab);
    var nov := Novel(seen, names);
    AddDistinctAppendsNovel(n, names, lab);
    LabelsAppend(n.children, Entries(lab, nov), lab);
    LabelsOfEntries(lab, nov);
    NovelMembers(seen, names);
    forall x | x in names
      ensures Some(x) in seen + Lift(nov)
    {
      LiftMember(nov, x);
    }
  }

  /** `list_features`: the text of every child. */
  function ListFeatures(fm: Node): (r: seq<Option<string>>)
    ensures |r| == |fm.children|
    ensures forall j | 0 <= j < |r| :: r[j] == fm.children[j].value
  {
    LabelsAt(fm.children, ByValue);
    Labels(fm.children, ByValue)
  }

  /**
   * `FeatureManager.add_features`: the old children followed by one new
   * `Feature` per name not yet listed, each once, in input order.
   */
  function AddFeatures(fm: Node, names: seq<string>): (r: Node)
    ensures r.children == fm.children + Entries(ByValue, Novel(ListFeatures(fm), names))
    ensures ListFeatures(r) == ListFeatures(fm) + Lift(Novel(ListFeatures(fm), names))
    ensures forall x | x in names :: Some(x) in ListFeatures(r)
    ensures r.kind == fm.kind && r.attrs == fm.attrs && r.value == fm.value
  {
    AddDistinctAppendsNovel(fm, names, ByValue);
    AddDistinctLabels(fm, names, ByValue);
    AddDistinct(fm, names, ByValue)
  }

  /** A repeated call with the same names is a no-op. */
  lemma AddFeaturesIdempotent(fm: Node, names: seq<string>)
    ensures AddFeatures(AddFeatures(fm, names), names) == AddFeatures(fm, names)
  {
    AddDistinctNoop(AddFeatures(fm, names), names, ByValue);
  }

  /** Two calls add what one call with the concatenated names adds. */
  lemma AddFeaturesTwice(fm: Node, a: seq<string>, b: seq<string>)
    ensures AddFeatures(AddFeatures(fm, a), b) == AddFeatures(fm, a + b)
  {
    AddDistinctAppend(fm, a, b, ByValue);
  }

  /** `list_members`: the `name` of every child. */
  function ListMembers(g: Node): (r: seq<Option<string>>)
    ensures |r| == |g.children|
    ensures forall j | 0 <= j < |r| :: r[j] == Get(g.children[j], NameKey)
  {
    LabelsAt(g.children, ByName);
    Labels(g.children, ByName)
  }

  /** `Group.add_members`: the same de-duplicating append, of `Member` children by name. */
  function AddMembers(g: Node, names: seq<string>): (r: Node)
    ensures r.children == g.children + Entries(ByName, Novel(ListMembers(g), names))
    ensures ListMembers(r) == ListMembers(g) + Lift(Novel(ListMembers(g), names))
    ensures forall x | x in names :: Some(x) in ListMembers(r)
    ensures r.kind == g.kind && r.attrs == g.attrs && r.value == g.value
  {
    AddDistinctAppendsNovel(g, names, ByName);
    AddDistinctLabels(g, names, ByName);
    AddDistinct(g, names, ByName)
  }

  lemma AddMembersIdempotent(g: Node, names: seq<string>)
    ensures AddMembers(AddMembers(g, names), names) == AddMembers(g, names)
  {
    AddDistinctNoop(AddMembers(g, names), names, ByName);
  }

  /** Children of kind `k` carrying only the given names. */
  function NamedAll(k: Kind, names: seq<string>): (r: seq<Node>)
    ensures |r| == |names|
    ensures forall j | 0 <= j < |names| :: r[j] == Named(k, names[j])
  {
    if |names| == 0 then [] else [Named(k, names[0])] + NamedAll(k, names[1..])
  }

  lemma {:induction false} NamedAllFacts(k: Kind, names: seq<string>)
    ensures Labels(NamedAll(k, names), ByName) == Lift(names)
    ensures FilterKind(NamedAll(k, names), k) == NamedAll(k, names)
  {
    if |names| > 0 {
      NamedAllFacts(k, names[1..]);
    }
  }

  /** The unconditional append shared by `add_groups` and `add_users`. */
  function AddNamed(role: Node, k: Kind, names: seq<string>): (r: Node)
    ensures |r.children| == |role.children| + |names|
    ensures Labels(r.children, ByName) == Labels(role.children, ByName) + Lift(names)
    ensures CountKind(r.children, k) == CountKind(role.children, k) + |names|
    ensures r.children == role.children + NamedAll(k, names)
    ensures r.kind == role.kind && r.attrs == role.attrs && r.value == role.value
  {
    var added := NamedAll(k, names);
    LabelsAppend(role.children, added, ByName);
    FilterKindAppend(role.children, added, k);
    NamedAllFacts(k, names);
    role.(children := role.children + added)
  }

  /** `SecurityRole.add_groups`: one `Group` per name, duplicates included. */
  function AddGroups(role: Node, names: seq<string>): (r: Node)
    ensures |r.children| == |role.children| + |names| && r.children[..|role.children|] == role.children
    ensures forall j | 0 <= j < |names| :: r.children[|role.children| + j] == Named(Group, names[j])
    ensures r.kind == role.kind && r.attrs == role.attrs && r.value == role.value
  {
    AddNamed(role, Group, names)
  }

  /** `SecurityRole.add_users`: one `User` per name, duplicates included. */
  function AddUsers(role: Node, names: seq<string>): (r: Node)
    ensures |r.children| == |role.children| + |names| && r.children[..|role.children|] == role.children
    ensures forall j | 0 <= j < |names| :: r.children[|role.children| + j] == Named(User, names[j])
    ensures r.kind == role.kind && r.attrs == role.attrs && r.value == role.value
  {
    AddNamed(role, User, names)
  }

  /** Unlike the de-duplicating lists, a repeated `add_groups` lists every name twice. */
  lemma AddGroupsRepeats(role: Node, names: seq<string>)
    ensures var r := AddGroups(AddGroups(role, names), names);
      Labels(r.children, ByName) == Labels(role.children, ByName) + Lift(names) + Lift(names)
  {
  }

  /** A binding as `ApplicationBnd()` creates it. */
  const NewBinding: Node := Empty(ApplicationBnd)

  /** The roles under the first binding, none when there is no binding. */
  function BoundRoles(app: Node): seq<Node>
  {
    FirstOr(app, NewBinding).children
  }

  /** `Application.add_security_role`: the first binding, created when missing, gets the role appended. */
  function AddSecurityRole(app: Node, role: Node): (r: Node)
    ensures FirstOr(r, NewBinding) == Add(FirstOr(app, NewBinding), role)
    ensures EditsFirst(app, r, ApplicationBnd)
  {
    ReplaceFirstFound(app, NewBinding, Add(FirstOr(app, NewBinding), role));
    ReplaceFirst(app, NewBinding, Add(FirstOr(app, NewBinding), role))
  }

  /**
   * The role ends up last under the first binding; a binding is created only
   * when none exists; every other child, later bindings included, is untouched.
   */
  lemma AddSecurityRoleBinding(app: Node, role: Node)
    ensures var r := AddSecurityRole(app, role);
      && BoundRoles(r) == BoundRoles(app) + [role]
      && CountKind(r.children, ApplicationBnd) == (if CountKind(app.children, ApplicationBnd) == 0 then 1 else CountKind(app.children, ApplicationBnd))
      && FirstOr(r, NewBinding) == Add(FirstOr(app, NewBinding), role)
      && EditsFirst(app, r, ApplicationBnd)
  {
    ReplaceFirstFound(app, NewBinding, Add(FirstOr(app, NewBinding), role));
    ReplaceFirstFrame(app, NewBinding, Add(FirstOr(app, NewBinding), role));
  }

  lemma ConsTail(a: seq<Node>, s: seq<Node>)
    requires |s| > 0
    ensures a + [s[0]] + s[1..] == a + s
  {
    assert s == [s[0]] + s[1..];
  }

  /** Adding roles one by one. */
  function AddSecurityRoles(app: Node, roles: seq<Node>): Node
    decreases |roles|
  {
    if |roles| == 0 then app else AddSecurityRoles(AddSecurityRole(app, roles[0]), roles[1..])
  }

  /**
   * Repeated calls put the roles, in call order, under the first binding, and
   * create a binding only when there was none and some role is added.
   */
  lemma {:induction false} AddSecurityRolesInOrder(app: Node, roles: seq<Node>)
    ensures BoundRoles(AddSecurityRoles(app, roles)) == BoundRoles(app) + roles
    ensures var before := CountKind(app.children, ApplicationBnd);
      CountKind(AddSecurityRoles(app, roles).children, ApplicationBnd) == (if |roles| > 0 && before == 0 then 1 else before)
    decreases |roles|
  {
    if |roles| == 0 {
      assert BoundRoles(app) + roles == BoundRoles(app);
    } else {
      var next := AddSecurityRole(app, roles[0]);
      AddSecurityRoleBinding(app, roles[0]);
      var before := BoundRoles(app);
      assert BoundRoles(next) == before + [roles[0]];
      AddSecurityRolesInOrder(next, roles[1..]);
      var r := AddSecurityRoles(next, roles[1..]);
      assert AddSecurityRoles(app, roles) == r;
      ConsTail(before, roles);
    }
  }

  /** Roles added to an application with no children end up under one new binding, in call order. */
  lemma AddSecurityRolesBare(app: Node, roles: seq<Node>)
    requires app.children == []
    ensures AddSecurityRoles(app, roles).children == (if |roles| == 0 then [] else [NewBinding.(children := roles)])
  {
    if |roles| > 0 {
      var next := AddSecurityRole(app, roles[0]);
      assert next.children == [NewBinding.(children := [roles[0]])];
      AddSecurityRolesSingle(next, NewBinding.(children := [roles[0]]), roles[1..]);
      assert [roles[0]] + roles[1..] == roles;
    }
  }

  /** Roles added to an application whose only child is a binding all go into that binding. */
  lemma {:induction false} AddSecurityRolesSingle(app: Node, b: Node, roles: seq<Node>)
    requires app.children == [b] && b.kind == ApplicationBnd
    ensures AddSecurityRoles(app, roles).children == [b.(children := b.children + roles)]
    decreases |roles|
  {
    if |roles| == 0 {
      assert b.children + roles == b.children;
    } else {
      var next := AddSecurityRole(app, roles[0]);
      assert FindIndex(app.children, ApplicationBnd) == Some(0);
      assert next.children == [Add(b, roles[0])];
      AddSecurityRolesSingle(next, Add(b, roles[0]), roles[1..]);
      assert b.children + [roles[0]] + roles[1..] == b.children + roles;
    }
  }

  /** Adding roles leaves the application's own kind, attributes and value alone. */
  lemma {:induction false} AddSecurityRolesFrame(app: Node, roles: seq<Node>)
    ensures var r := AddSecurityRoles(app, roles);
      r.kind == app.kind && r.attrs == app.attrs && r.value == app.value
    decreases |roles|
  {
    if |roles| > 0 {
      AddSecurityRoleBinding(app, roles[0]);
      AddSecurityRolesFrame(AddSecurityRole(app, roles[0]), roles[1..]);
    }
  }

  // ----- Declared keys ----------------------------------------------------

  /** Appending well-keyed children keeps an element well keyed. */
  lemma AppendWellKeyed(n: Node, cs: seq<Node>)
    ensures WellKeyed(n) && (forall c | c in cs :: WellKeyed(c)) ==> WellKeyed(n.(children := n.children + cs))
  {
  }

  lemma {:induction false} EntriesWellKeyed(lab: Label, names: seq<string>)
    ensures forall c | c in Entries(lab, names) :: WellKeyed(c)
    decreases |names|
  {
    if |names| > 0 {
      EntriesWellKeyed(lab, names[1..]);
    }
  }

  lemma {:induction false} NamedAllWellKeyed(k: Kind, names: seq<string>)
    requires NameKey in DeclaredKeys(k)
    ensures forall c | c in NamedAll(k, names) :: WellKeyed(c)
    decreases |names|
  {
    if |names| > 0 {
      NamedAllWellKeyed(k, names[1..]);
    }
  }

  /** `add_features` only adds features, which carry no attributes. */
  lemma AddFeaturesWellKeyed(fm: Node, names: seq<string>)
    ensures WellKeyed(fm) ==> WellKeyed(AddFeatures(fm, names))
  {
    EntriesWellKeyed(ByValue, Novel(ListFeatures(fm), names));
    AppendWellKeyed(fm, Entries(ByValue, Novel(ListFeatures(fm), names)));
  }

  /** `add_members` only adds members, which carry just a name. */
  lemma AddMembersWellKeyed(g: Node, names: seq<string>)
    ensures WellKeyed(g) ==> WellKeyed(AddMembers(g, names))
  {
    EntriesWellKeyed(ByName, Novel(ListMembers(g), names));
    AppendWellKeyed(g, Entries(ByName, Novel(ListMembers(g), names)));
  }

  /** `add_groups` and `add_users` only add children of a class that declares `name`. */
  lemma AddNamedWellKeyed(role: Node, k: Kind, names: seq<string>)
    requires NameKey in DeclaredKeys(k)
    ensures WellKeyed(role) ==> WellKeyed(AddNamed(role, k, names))
  {
    NamedAllWellKeyed(k, names);
    AppendWellKeyed(role, NamedAll(k, names));
  }

  /** Binding well-keyed roles keeps a well-keyed application well keyed. */
  lemma {:induction false} AddSecurityRolesWellKeyed(app: Node, roles: seq<Node>)
    ensures WellKeyed(app) && (forall c | c in roles :: WellKeyed(c)) ==> WellKeyed(AddSecurityRoles(app, roles))
    decreases |roles|
  {
    if |roles| > 0 && WellKeyed(app) && (forall c | c in roles :: WellKeyed(c)) {
      var b := FirstOr(app, NewBinding);
      WellKeyedFirstOr(app, NewBinding);
      WellKeyedAdd(b, roles[0]);
      WellKeyedReplaceFirst(app, NewBinding, Add(b, roles[0]));
      AddSecurityRolesWellKeyed(AddSecurityRole(app, roles[0]), roles[1..]);
    }
  }
}

=== FILE: wrappers.dfy ===
/** Failure-compatible result types shared by the whole model. */
module Wrappers {

  /** Python's `None` or a present value. */
  datatype Option<+T> = None | Some(value: T)

  /** A computation that either yields a value or fails with a typed error. */
  datatype Result<+T, +E> = Success(value: T) | Failure(error: E)

  /** Python truthiness of an optional string: present and non-empty. */
  predicate Truthy(s: Option<string>)
  {
    s.Some? && s.value != ""
  }
}
